=== FILE: README.md ===
# NBA prop EV engine — a Dafny model

This project models the deterministic core of the betting engine in
`NBAData/gambling.py` of the Prize-Picks prop predictor. It covers:

- Odds arithmetic: the probability an American price implies, the Kelly
  stake, and the consensus ("fair") odds of all bookmakers' offers on one
  player, category, line and side.
- The residual-spread fallback policy that gives every player and stat the
  standard deviation its simulation runs with.
- Opponent resolution against the day's schedule.
- The over/under frequencies of a Monte Carlo draw.
- Single-prop pricing (`single_bet`): profit, payout, EV and Kelly stake of
  each bookmaker offer.
- Pick'em pairs and trios (`prizePicksPairsEV`, `prizePicksTriosEV`):
  resolving candidate legs, enumerating combinations with `i < j (< k)`,
  rejecting inadmissible ones, deduplicating by an order-independent key,
  scoring every over/under pattern, and picking the first pattern with the
  largest EV.

Numbers are exact `real`s and American odds are `int`s. Python's `round`
(to an integer or to d places) is modelled in `Rounding` as round half to
even on exact reals, and every rounding step of the source appears in the
model at the place the code rounds. Python rounds a binary double instead,
so at some decimal ties the two disagree (see "## Left out").
Every member whose result depends on a defect listed under Findings takes a
`Pricing` argument: `AsWritten` follows the code as it stands, and
`Corrected` applies the evident intent.
Some inputs are outside the model and are taken as given:

- the machine-learning prediction;
- `np.std` and pandas' `.std()`;
- the random draw of the simulation;
- the per-player team column of the datasets.

Modules, in dependency order:

- `Wrappers`: `Option` and `Result`.
- `Filter`: dropping the failed items of a batch and keeping the rest in order, and keeping the first acceptable item of each key.
- `RealArith`: small facts about products and quotients of reals.
- `Rounding`: Python's `round`.
- `Props`: the `Side` and `Offer` records.
- `OddsMath`: `impliedProb`, `kelly_criterion` and `fairProb`.
- `ResidualStd`: the tail of `precompute_player_residual_stds`.
- `Schedule`: opponent lookup and the player's latest team.
- `Simulation`: `monte_carlo_prop_simulation` on a given draw.
- `CanonicalKey`: Python tuple order on `(player, category, line)` and the sorted key.
- `Legs`: the `available_players` loop.
- `Combinations`: the pair and trio generators.
- `Scoring`: `process_combination` and the final result rows.
- `SingleBet`: `single_bet`.

## Model

| member | source | states |
|---|---|---|
| OddsMath.ImpliedProb | NBAData/gambling.py:17-21 | The implied probability is in [0, 1) and is 0 only at odds 0. For positive odds it is below 0.5 exactly when odds exceed +100, and exactly 0.5 at +100. For odds of at most 0 it is at least 0.5 exactly when odds are at most -100, and exactly 0.5 at -100. |
| OddsMath.KellyAsWritten | NBAData/gambling.py:23-27 | The Kelly stake as the source computes it (net odds taken as the dollar profit) is never negative. |
| OddsMath.KellyAsWrittenMonotone | NBAData/gambling.py:23-27 | With payout above stake and a non-negative fraction, the as-written stake never decreases as the probability grows. |
| OddsMath.Kelly | NBAData/gambling.py:23-27 | The Kelly stake on net odds (payout − stake) / stake is never negative. |
| OddsMath.KellyMonotone | NBAData/gambling.py:23-27 | The Kelly stake never decreases as the probability grows. |
| OddsMath.KellyIsEdgeOverProfit | NBAData/gambling.py:23-26 | Before rounding, the Kelly fraction on net odds equals the expected profit p·payout − stake divided by the net profit payout − stake. |
| OddsMath.KellyStakesOnlyPositiveEdges | NBAData/gambling.py:23-27 | A positive Kelly stake implies a positive expected profit. A bet with no positive expected profit gets stake 0. |
| OddsMath.KellyAsWrittenStakesLosingBet | NBAData/gambling.py:23-27 | At payout 300 and stake 100, a 30% bet loses money on average. The as-written formula still stakes 0.2965 on it; the Kelly stake on net odds is 0. |
| OddsMath.BufferedProbs | NBAData/gambling.py:42-50 | Each entry is the buffered probability of some offer on that player, category, line and side. Every such offer contributes its buffered probability. The list is empty exactly when no offer matches, and every entry lies in [−0.035, 0.965]. |
| OddsMath.Buffered | NBAData/gambling.py:47-50 | The buffered probability of a price lies in [−0.035, 0.965]. |
| OddsMath.BufferedProbsOnePerOffer | NBAData/gambling.py:42-50 | Exactly one entry per matching offer, in table order: entry a is the buffered probability of offer idx[a], the positions strictly increase, and every matching offer has its position among them. |
| OddsMath.Mean | NBAData/gambling.py:56 | The mean of values within bounds lies within the same bounds. |
| OddsMath.AmericanFromDecimal | NBAData/gambling.py:61-69 | The conversion fails exactly at decimal odds 1 (a division by zero). Decimal 2.0 gives +100, above 2.0 gives at least +100, and between 1 and 2 gives at most −100. Decimals in [0, 1) give at least +100, and negative decimals give a value in [0, 100]. |
| OddsMath.FairOdds | NBAData/gambling.py:30-69 | `fairProb` fails with "no offers" exactly when no offer matches. It fails with "zero probability" exactly when some offer matches and the buffered mean is 0. It never divides by zero. Otherwise its sign and bound follow the buffered mean probability: 0.5 gives +100, (0, 0.5) gives ≥ +100, above 0.5 gives ≤ −100, and a negative mean gives [0, 100]. |
| OddsMath.AmericanRoundTrip | NBAData/gambling.py:17-21 | For any price of at least +100 or at most −100, implied probability → decimal → American returns the same price. The exception is −100, which comes back as the equal price +100. |
| ResidualStd.Residuals | NBAData/gambling.py:84-105 | Each residual is actual − predicted for some game whose stat is present and whose prediction succeeded, and every such game contributes its residual. The list is full exactly when every game is usable, and empty exactly when none is. |
| ResidualStd.Residual | NBAData/gambling.py:84-105 | A game yields a residual exactly when its stat is present and its prediction succeeded, and the residual is the actual value minus the prediction. |
| ResidualStd.ResidualsOnePerGame | NBAData/gambling.py:84-105 | Exactly one residual per usable game, in game order: residual a is that of game idx[a], the positions strictly increase, and every usable game has its position among them. |
| ResidualStd.Estimate | NBAData/gambling.py:108-114 | The spread never exceeds 12 and is positive when the input spreads are non-negative. With ≥ 3 residuals and a positive population std s, it is min(s, 12). With < 3 residuals and a positive historical std h, it is min(0.7·h, 12). A missing (NaN) or zero spread gives 5.0. |
| ResidualStd.BuildTable | NBAData/gambling.py:73-116 | The table has an entry for every listed player and stat and nothing else. Each entry is the estimate from that player's residuals and historical spread. |
| ResidualStd.BuildTableWellFormed | NBAData/gambling.py:108-114 | With non-negative spreads in, every entry of the table lies in (0, 12]. |
| ResidualStd.StdFor | NBAData/gambling.py:213 | A missing player or stat gets 5.0. Every lookup in a well-formed table lies in (0, 12]. |
| Schedule.Opponent | NBAData/gambling.py:182-192 | None exactly when no game involves the team. Otherwise the result is the other side of the first game that involves it, with the home side checked first. |
| Schedule.OpponentAppend | NBAData/gambling.py:182-192 | First match wins: on a split schedule the later games are consulted only when the earlier ones have no game for the team. |
| Schedule.LatestTeam | NBAData/gambling.py:175-179 | A player without rows has no team; otherwise the team is the one on the last row. |
| Simulation.CountAbove | NBAData/gambling.py:130 | The number of samples strictly above the line is at most n. It equals n exactly when all samples are above, and 0 exactly when none is. |
| Simulation.CountAboveAntitone | NBAData/gambling.py:130 | Raising the line never increases the count above it. |
| Simulation.CountAboveAppend | NBAData/gambling.py:130 | Counting splits over a concatenation of draws: the count over a + b is the count over a plus the count over b. |
| Simulation.Frequency | NBAData/gambling.py:130-131 | The share of c outcomes among n lies in [0, 1], times n gives back c, and is 1 exactly when c = n and 0 exactly when c = 0. |
| Simulation.Simulate | NBAData/gambling.py:125-139 | Both probabilities lie in [0, 1] and sum to exactly 1. The over probability is the share of samples strictly above the line. It is 1 exactly when every sample is above, and 0 exactly when none is. |
| Simulation.SimulateLineMonotone | NBAData/gambling.py:130-131 | On the same draw, a higher line never gives a higher over probability. |
| CanonicalKey.Sort | NBAData/gambling.py:346-350 | Sorting a key's parts keeps exactly the same parts (as a multiset). |
| CanonicalKey.SortSorted | NBAData/gambling.py:346-350 | The sorted key is ordered by Python tuple order on (player, category, line). |
| CanonicalKey.SortIdentifiesMultisets | NBAData/gambling.py:345-350 | Two part lists get the same sorted key exactly when they hold the same parts with the same multiplicities. |
| Combinations.KeyIdentifiesParts | NBAData/gambling.py:573-580 | Two combinations share a key exactly when their legs have the same (player, category, line) parts, in any order. |
| Combinations.KeyIsSortedParts | NBAData/gambling.py:345-350 | The key of a combination holds exactly its legs' (player, category, line) parts, one per leg, in Python tuple order. |
| Combinations.PairKeySymmetric | NBAData/gambling.py:345-350 | Swapping the two legs of a pair does not change its key. |
| Combinations.TrioTeamRule | NBAData/gambling.py:602-609 | "Some team has more than 2 of the 3 legs" holds exactly when all three legs share a team. |
| Combinations.AdmissibleRule | NBAData/gambling.py:363-364 | A pair is admissible exactly when it has two legs of different players on different teams; a trio exactly when it has three legs of different players not all on one team (the trio rule is at lines 601-614). |
| Combinations.Dedup | NBAData/gambling.py:352-375 | Every kept combination is an admissible candidate whose key was not seen, and no two kept combinations share a key. Every admissible candidate's key is either already seen or kept. A candidate that is the first admissible one with its key, when that key was not seen, is itself kept: the first admissible candidate wins its key. |
| Combinations.DedupInOrder | NBAData/gambling.py:352-375 | The kept combinations appear in the candidates' order: kept combination a is candidate idx[a], at strictly increasing positions. No admissible candidate before a kept one shares its key, so the candidate kept for each key is the first admissible one with it. |
| Combinations.FirstOrderKept | NBAData/gambling.py:352-366 | The same two legs offered in both orders: the first order is kept and the swapped copy is skipped as already seen. |
| Combinations.GeneratePairs | NBAData/gambling.py:352-375 | Every pair comes from some i < j. Its two players differ and its two teams differ. No two pairs share a key. Every admissible pair i < j has its key emitted. |
| Combinations.GenerateTrios | NBAData/gambling.py:583-624 | Every trio comes from some i < j < k and has three distinct players. Not all three legs share a team. Keys are unique, and every admissible trio's key is emitted. |
| Combinations.Generate | NBAData/gambling.py:352-375 | The generator of either kind (the pair loop here, the trio loop at lines 583-624) yields combinations with distinct keys, each with the kind's number of legs and all players different. |
| Combinations.TwoLegsOnePair | NBAData/gambling.py:352-375 | Two legs of different players on different teams give exactly one pair. |
| Combinations.TwoLegsSameTeam | NBAData/gambling.py:363-364 | Two legs on the same team give no pair at all. |
| Legs.ResolveLeg | NBAData/gambling.py:294-343 | A board row is skipped exactly when the player has no rows, the latest team has no game, or the prediction fails. Otherwise the leg carries the row's player, category and line, the last team, the first-match opponent, the prediction, and the table spread with default 5.0. |
| Legs.CategoryLegs | NBAData/gambling.py:288-343 | Every leg of a category is the resolution of a board row of that category, and every board row of the category that resolves has its leg in the list. Each leg carries the category and stat line, the scheduled opponent, a board row's player and line, and the table spread. |
| Legs.CategoryLegsOnePerRow | NBAData/gambling.py:288-343 | Exactly one leg per resolvable board row of the category, in board order: leg a resolves row idx[a], the positions strictly increase, and every resolvable row of the category has its position among them. |
| Legs.AvailableLegs | NBAData/gambling.py:286-343 | Every leg is the resolution of a board row of some tracked category with that category's stat line. Every board row of a tracked category that resolves has its leg in the list. Each leg's opponent is its team's scheduled opponent, and with a well-formed table its spread lies in (0, 12]. |
| Scoring.AllPatternsSumToOne | NBAData/gambling.py:404-409 | Over all 2^k over/under patterns, the products of calibrated per-leg probabilities sum to exactly 1. |
| Scoring.PatternProbInUnit | NBAData/gambling.py:404-409 | The probability of an over/under pattern, a product of calibrated per-leg probabilities, lies in [0, 1]. |
| Scoring.PairOrderSum | NBAData/gambling.py:404-409 | Summing the pair patterns in the dictionary's order OO, UU, OU, UO gives the same total as in lexicographic order. |
| Scoring.PairPatternsSumToOne | NBAData/gambling.py:404-409 | The four pair patterns, in the dictionary's order OO, UU, OU, UO, sum to exactly 1. |
| Scoring.TrioPatternOrder | NBAData/gambling.py:661-670 | The eight trio patterns, in the dictionary's order, are the over/under strings in lexicographic order. |
| Scoring.TrioPatternsSumToOne | NBAData/gambling.py:661-670 | The eight trio pattern probabilities sum to exactly 1. |
| Scoring.PatternEv | NBAData/gambling.py:411 | A pattern that cannot happen is worth −stake, and a pattern that is certain is worth payout − stake, both rounded to 2 places. |
| Scoring.PatternEvMonotone | NBAData/gambling.py:411 | With a non-negative payout, a more likely pattern never has a smaller EV. |
| Scoring.FirstMax | NBAData/gambling.py:413 | `max(evs, key=evs.get)`: the chosen index holds the maximum, and every earlier index holds a strictly smaller value. |
| Scoring.FirstMaxUnique | NBAData/gambling.py:413 | At most one index is the first maximum. |
| Scoring.ScoreCombo | NBAData/gambling.py:377-425 | A combination is unscored exactly when its legs or draws have the wrong shape. A score keeps its combination. |
| Scoring.ScoreComboPicksFirstBest | NBAData/gambling.py:404-415 | For pairs here and trios at lines 660-676: the chosen pattern is one of the kind's patterns. Its probability is the product of its legs' side probabilities, and its EV is round(prob·payout − stake, 2). No pattern has a larger EV, and every pattern with an equal EV comes no earlier in dictionary order. |
| Scoring.ScoreAt | NBAData/gambling.py:386-425 | Combination n fails exactly when its draws are missing or have the wrong shape; a score is of combination n. |
| Scoring.ScoreAll | NBAData/gambling.py:441-445 | One result per candidate, in candidate order; entry n fails exactly when combination n cannot be scored, and otherwise scores combination n. |
| Filter.Present | NBAData/gambling.py:447-452 | Dropping failed results: every kept value is a success of the batch, and every success is kept. Nothing is dropped exactly when nothing failed, and nothing is kept exactly when everything failed. |
| Filter.PresentIndices | NBAData/gambling.py:447-452 | Exactly one kept value per success, in the batch's order: value a is the success at position idx[a], the positions strictly increase, and every success has its position among them. |
| Scoring.PresentDistinct | NBAData/gambling.py:447-452 | If the candidates' canonical keys are distinct, so are the keys of the kept scores. |
| Scoring.PresentWithin | NBAData/gambling.py:447-452 | Every kept score from index i on is of a candidate from index i on. |
| Scoring.ReportedEvIsBestEv | NBAData/gambling.py:473 | Rounding the best EV to 2 places again in the report leaves it unchanged. |
| Scoring.ToRow | NBAData/gambling.py:460-476 | A report row keeps its combination's legs and chosen pattern. Its Kelly stake is never negative, and its probability lies in [0, 1] whenever the best probability does. The stake follows the pricing; the as-written pricing is `kelly_criterion` as the source calls it at line 475. |
| Scoring.Report | NBAData/gambling.py:434-478 | As written, the report fails (a pool of 0 workers) exactly when no combination is admissible; the corrected report never fails. Every row is the row of some scored candidate, and every candidate that scores has its row. No two rows share a canonical key, and every row has the kind's number of legs, all with different players, and a non-negative Kelly stake. |
| Scoring.RowsTracedSound | NBAData/gambling.py:447-476 | Every report row is the row of a candidate that scored. |
| Scoring.RowsTracedComplete | NBAData/gambling.py:447-476 | Every candidate that scores has its row in the report. |
| Scoring.EmptyBoardRaises | NBAData/gambling.py:434-439 | Two legs on the same team give no admissible pair, and the as-written report then fails for want of workers. |
| Scoring.CorrectedReportNeverFails | NBAData/gambling.py:434-439 | The corrected report never fails, and with no admissible combination it is empty. |
| SingleBet.Profit | NBAData/gambling.py:227-228 | Profit is undefined (a division by zero) exactly at odds 0 and positive otherwise. At +100 and −100 it equals the stake. |
| SingleBet.BreakEven | NBAData/gambling.py:227-228 | The implied probability (lines 17-21) times the payout stake + profit is exactly the stake. |
| SingleBet.EvIsEdge | NBAData/gambling.py:229 | The EV equals payout × (probability − implied probability). |
| SingleBet.EvPositiveIff | NBAData/gambling.py:229 | The EV is positive exactly when the probability beats the implied probability. The same holds for p·payout > stake. |
| SingleBet.BuildRow | NBAData/gambling.py:239-253 | A row's Kelly stake is never negative, and its fair-odds column is missing exactly when `fairProb` fails for the offer. |
| SingleBet.RowEvFollowsEdge | NBAData/gambling.py:226-231 | Under either pricing, a row's rounded EV is positive only when the probability it is priced from beats the implied probability, and is never positive otherwise. |
| SingleBet.FairOddsOrNone | NBAData/gambling.py:234-237 | The fair-odds column is missing exactly when `fairProb` raises, and otherwise holds its value. |
| SingleBet.PriceOffer | NBAData/gambling.py:166-256 | An offer is skipped exactly when its player cannot be resolved or its odds are 0. A row keeps the offer's name, bookmaker, category, line, side and odds. Its opponent is the team's scheduled opponent, its Kelly stake is non-negative, and its reported probability lies in [0, 1]. |
| SingleBet.SingleBet | NBAData/gambling.py:143-258 | Every row is the priced row of some offer of the category, and every offer of the category that can be priced has its row. A category without offers gives no rows. Every row has the category, non-zero odds, a non-negative Kelly stake and the team's scheduled opponent, and matches an offer of that category. |
| SingleBet.SingleBetOnePerOffer | NBAData/gambling.py:143-258 | Exactly one row per priceable offer of the category, in table order: row a is the priced row of offer idx[a], the positions strictly increase, and every priceable offer of the category has its position among them. |
| SingleBet.CorrectedRowMatchesSide | NBAData/gambling.py:226-231 | Priced from its own side, a row shows a positive EV only if that side's simulated probability beats the implied one. A side that does not beat it gets EV ≤ 0 and Kelly 0. |
| SingleBet.CorrectedPrice | NBAData/gambling.py:227-231 | For a probability and a non-zero price: a positive 2-place EV implies the probability beats the implied one, and a probability that does not beat it gets EV ≤ 0 and Kelly 0. |
| SingleBet.AsWrittenIgnoresSide | NBAData/gambling.py:224-231 | As written, the over and the under of the same offer get the same EV and the same Kelly stake. |
| SingleBet.UnderPricedFromOver | NBAData/gambling.py:224-231 | An under at +100 whose draw lands entirely above the line shows EV +100 as written. The under never wins in the simulation and the corrected EV is −100. |

## Left out

- CSV loading, DataFrame filtering and assembly: rows are sequences of records, and the dataset's team column is the input `teamsOf`.
- `make_prediction` and the XGBoost models: a prediction is an input function that may fail (`None`), both in resolution and in the residual loop.
- `np.random.normal`: the draw is an input sequence of samples. `single_bet` always draws 10000 of them (line 220); the pair and trio scorers draw their `simulations` argument, 10000 by default (lines 260, 397, 480, 649). An empty draw makes `np.percentile` raise inside the scorer, so a pair or trio with an empty draw is unscored (`Scoring.WellShaped` is false), not excluded by a precondition. `Simulation.Simulate` itself needs at least one sample.
- `np.percentile` (the confidence interval of a simulation): floating-point percentiles. The result record has no interval field.
- `np.std` and pandas `.std()`: the population std is an input function and the historical std an input value, either possibly NaN.
- `ThreadPoolExecutor` and `as_completed`: scoring is a sequential map that drops failures. The source's output order is the completion order, which the model fixes as enumeration order.
- `convert_to_et`: time-zone conversion.
- Printing and logging.
- Rounding.RoundTo: rounds an exact real half to even, whereas Python's `round` rounds the binary double nearest the value. At a decimal tie that is not a binary fraction the two differ. `SIM_PROB` is `round(prob_over, 3)` (gambling.py:250): with 1235 of 10000 samples above the line Python gives 0.123 and the model 0.124, and 500 of the 10001 possible counts differ in this way. `round(impliedProb(-3900), 2)` (gambling.py:47) is `round(0.975, 2)`, which Python evaluates to 0.97, while `OddsMath.Buffered(-3900)` uses 0.98 before subtracting the buffer.
- Floating-point representation: all other values are exact reals, with no binary representation error.
- Exceptions other than those the code names: a failure while scoring a combination is the input `draws(n) = None`, and a failed prediction is `None`.
- The trio scorer looks each leg's spread up again in the spread table. It uses the same lookup as the legs, so the model uses the leg's own spread.
- The over/under fraction is over the `>` comparison only; NaN samples are not modelled.
- OddsMath.FairOdds: a decimal just above 2.0 rounds to exactly +100, and one just below 2.0 to exactly −100, so the contract states ≥ +100 above decimal 2.0 and ≤ −100 between 1 and 2 rather than strict bounds.
- OddsMath.ImpliedProb: positive odds from +1 to +100 give at least 0.5, exactly 0.5 at +100, and only odds above +100 give less than 0.5; the contract states these boundaries.

## Findings

| source | as written | input that shows it | evidently intended | confidence | as-written member | corrected member |
|---|---|---|---|---|---|---|
| NBAData/gambling.py:23-27 | `kelly_criterion` uses the dollar profit `payout - stake` as the net odds b | payout 300, stake 100, probability 0.3: EV = −10, yet the stake is 0.2965 | b = (payout − stake) / stake, so that only bets with positive expected profit get a stake | high, not executed | OddsMath.KellyAsWrittenStakesLosingBet | OddsMath.KellyStakesOnlyPositiveEdges |
| NBAData/gambling.py:224-231 | `single_bet` prices every offer, under or over, from `prob_over` | an under at +100 whose draw is entirely above the line: EV +100 although the under never wins | price each row from the probability of its own side (`prob_under` for unders) | high, not executed | SingleBet.UnderPricedFromOver | SingleBet.CorrectedRowMatchesSide |
| NBAData/gambling.py:436-439 | the pool size is `min(cpu_count(), len(valid_combinations))`, and `ThreadPoolExecutor` raises `ValueError` for 0 workers (the trio scorer repeats this at lines 700-704) | a board whose only two legs are on the same team: no pair is admissible and the call raises instead of returning | an empty result when no combination is admissible | high, not executed | Scoring.EmptyBoardRaises | Scoring.CorrectedReportNeverFails |

=== FILE: CanonicalKey.dfy ===
/** The order-independent identity of a multi-leg bet: the legs'
    (player, category, line) triples sorted under Python's tuple order. */
module CanonicalKey {

  datatype KeyPart = KeyPart(player: string, category: string, line: real)

  /** Python's `<=` on strings: code point by code point, a prefix first. */
  predicate StrLe(a: string, b: string)
  {
    |a| == 0 || (|b| > 0 && (a[0] < b[0] || (a[0] == b[0] && StrLe(a[1..], b[1..]))))
  }

  lemma {:induction false} StrLeTotal(a: string, b: string)
    ensures StrLe(a, b) || StrLe(b, a)
  {
    if |a| > 0 && |b| > 0 && a[0] == b[0] {
      StrLeTotal(a[1..], b[1..]);
    }
  }

  lemma {:induction false} StrLeAntisymmetric(a: string, b: string)
    requires StrLe(a, b) && StrLe(b, a)
    ensures a == b
  {
    if |a| > 0 && |b| > 0 {
      StrLeAntisymmetric(a[1..], b[1..]);
      assert a == [a[0]] + a[1..];
      assert b == [b[0]] + b[1..];
    }
  }

  lemma {:induction false} StrLeTransitive(a: string, b: string, c: string)
    requires StrLe(a, b) && StrLe(b, c)
    ensures StrLe(a, c)
  {
    if |a| > 0 && |b| > 0 && |c| > 0 && a[0] == b[0] && b[0] == c[0] {
      StrLeTransitive(a[1..], b[1..], c[1..]);
    }
  }

  /** Python's `<=` on (player, category, line) tuples. */
  predicate PartLe(x: KeyPart, y: KeyPart)
  {
    if x.player != y.player then StrLe(x.player, y.player)
    else if x.category != y.category then StrLe(x.category, y.category)
    else x.line <= y.line
  }

  lemma PartLeTotal(x: KeyPart, y: KeyPart)
    ensures PartLe(x, y) || PartLe(y, x)
  {
    StrLeTotal(x.player, y.player);
    StrLeTotal(x.category, y.category);
  }

  lemma PartLeAntisymmetric(x: KeyPart, y: KeyPart)
    requires PartLe(x, y) && PartLe(y, x)
    ensures x == y
  {
    if x.player != y.player {
      StrLeAntisymmetric(x.player, y.player);
    } else if x.category != y.category {
      StrLeAntisymmetric(x.category, y.category);
    }
  }

  lemma PartLeTransitive(x: KeyPart, y: KeyPart, z: KeyPart)
    requires PartLe(x, y) && PartLe(y, z)
    ensures PartLe(x, z)
  {
    if x.player != y.player && y.player != z.player {
      StrLeTransitive(x.player, y.player, z.player);
      if x.player == z.player {
        StrLeAntisymmetric(x.player, y.player);
      }
    } else if x.player != y.player || y.player != z.player {
    } else if x.category != y.category && y.category != z.category {
      StrLeTransitive(x.category, y.category, z.category);
      if x.category == z.category {
        StrLeAntisymmetric(x.category, y.category);
      }
    }
  }

  ghost predicate Sorted(s: seq<KeyPart>)
  {
    forall i, j | 0 <= i < j < |s| :: PartLe(s[i], s[j])
  }

  /** Insert into a sorted sequence before the first element not below it. */
  function Insert(x: KeyPart, s: seq<KeyPart>): (r: seq<KeyPart>)
    ensures multiset(r) == multiset(s) + multiset{x}
  {
    if |s| == 0 then [x]
    else if PartLe(x, s[0]) then [x] + s
    else
      assert s == [s[0]] + s[1..];
      [s[0]] + Insert(x, s[1..])
  }

  /** `sorted(...)`: insertion sort. */
  function Sort(s: seq<KeyPart>): (r: seq<KeyPart>)
    ensures multiset(r) == multiset(s)
  {
    if |s| == 0 then []
    else
      assert s == [s[0]] + s[1..];
      Insert(s[0], Sort(s[1..]))
  }

  lemma {:induction false} InsertSorted(x: KeyPart, s: seq<KeyPart>)
    requires Sorted(s)
    ensures Sorted(Insert(x, s))
  {
    if |s| == 0 {
    } else if PartLe(x, s[0]) {
      forall j | 0 < j < |s| {
        PartLeTransitive(x, s[0], s[j]);
      }
    } else {
      PartLeTotal(x, s[0]);
      InsertSorted(x, s[1..]);
      var r := Insert(x, s);
      var tail := Insert(x, s[1..]);
      assert r == [s[0]] + tail;
      forall k | 0 <= k < |tail|
        ensures PartLe(s[0], tail[k])
      {
        assert tail[k] in multiset(tail);
        assert tail[k] == x || tail[k] in multiset(s[1..]);
        if tail[k] != x {
          var m :| 0 <= m < |s[1..]| && s[1..][m] == tail[k];
          assert s[m + 1] == tail[k];
        }
      }
    }
  }

  lemma {:induction false} SortSorted(s: seq<KeyPart>)
    ensures Sorted(Sort(s))
  {
    if |s| > 0 {
      SortSorted(s[1..]);
      InsertSorted(s[0], Sort(s[1..]));
    }
  }

  /** Two sorted arrangements of the same parts are the same sequence. */
  lemma {:induction false} SortedUnique(a: seq<KeyPart>, b: seq<KeyPart>)
    requires Sorted(a) && Sorted(b) && multiset(a) == multiset(b)
    ensures a == b
  {
    if |a| == 0 {
      assert |multiset(b)| == 0;
    } else {
      assert |b| == |multiset(b)| == |multiset(a)| == |a|;
      SortedHeadIsLeast(a, b[0]);
      SortedHeadIsLeast(b, a[0]);
      PartLeAntisymmetric(a[0], b[0]);
      TailMultiset(a);
      TailMultiset(b);
      SortedTail(a);
      SortedTail(b);
      SortedUnique(a[1..], b[1..]);
      assert a == [a[0]] + a[1..];
      assert b == [b[0]] + b[1..];
    }
  }

  lemma SortedHeadIsLeast(a: seq<KeyPart>, x: KeyPart)
    requires Sorted(a) && x in multiset(a)
    ensures |a| > 0 && PartLe(a[0], x)
  {
    var i :| 0 <= i < |a| && a[i] == x;
    if i == 0 { PartLeReflexive(x); }
  }

  lemma SortedTail(a: seq<KeyPart>)
    requires Sorted(a) && |a| > 0
    ensures Sorted(a[1..])
  {
    forall i, j | 0 <= i < j < |a[1..]|
      ensures PartLe(a[1..][i], a[1..][j])
    {
      assert a[1..][i] == a[i + 1] && a[1..][j] == a[j + 1];
    }
  }

  lemma TailMultiset(a: seq<KeyPart>)
    requires |a| > 0
    ensures multiset(a[1..]) == multiset(a) - multiset{a[0]}
  {
    assert a == [a[0]] + a[1..];
  }

  lemma PartLeReflexive(x: KeyPart)
    ensures PartLe(x, x)
  {
  }

  /** Sorting identifies exactly the sequences holding the same parts. */
  lemma SortIdentifiesMultisets(a: seq<KeyPart>, b: seq<KeyPart>)
    ensures Sort(a) == Sort(b) <==> multiset(a) == multiset(b)
  {
    if multiset(a) == multiset(b) {
      SortSorted(a);
      SortSorted(b);
      SortedUnique(Sort(a), Sort(b));
    }
  }
}

=== FILE: Combinations.dfy ===
/** Enumeration of pairs and trios of legs by increasing indices i < j (< k),
    filtered by the team and player rules and deduplicated by canonical key. */
module Combinations {
  import opened CanonicalKey
  import opened Legs
  import opened Filter

  /** The legs of one multi-leg bet, in enumeration order. */
  datatype Combo = Combo(legs: seq<Leg>)

  datatype Kind = Pair | Trio

  /** The number of legs of a kind of bet. */
  function Arity(kind: Kind): nat
  {
    match kind
    case Pair => 2
    case Trio => 3
  }

  predicate DistinctPlayers(legs: seq<Leg>)
  {
    forall x, y | 0 <= x < y < |legs| :: legs[x].player != legs[y].player
  }

  function Parts(legs: seq<Leg>): (ps: seq<KeyPart>)
    ensures |ps| == |legs|
    ensures forall i | 0 <= i < |legs| :: ps[i] == Part(legs[i])
  {
    if |legs| == 0 then [] else [Part(legs[0])] + Parts(legs[1..])
  }

  /** The sorted tuple of (player, category, line) over the legs. */
  function Key(c: Combo): seq<KeyPart>
  {
    Sort(Parts(c.legs))
  }

  /** Two combinations share a key exactly when they hold the same
      (player, category, line) triples, whatever their order. */
  lemma KeyIdentifiesParts(a: Combo, b: Combo)
    ensures Key(a) == Key(b) <==> multiset(Parts(a.legs)) == multiset(Parts(b.legs))
  {
    SortIdentifiesMultisets(Parts(a.legs), Parts(b.legs));
  }

  /** The key holds the combination's (player, category, line) triples,
      each as often as it occurs, in Python's tuple order. */
  lemma KeyIsSortedParts(c: Combo)
    ensures multiset(Key(c)) == multiset(Parts(c.legs))
    ensures |Key(c)| == |c.legs|
    ensures Sorted(Key(c))
  {
    SortSorted(Parts(c.legs));
    assert |multiset(Key(c))| == |multiset(Parts(c.legs))|;
  }

  lemma PairKeySymmetric(x: Leg, y: Leg)
    ensures Key(Combo([x, y])) == Key(Combo([y, x]))
  {
    assert Parts([x, y]) == [Part(x), Part(y)];
    assert Parts([y, x]) == [Part(y), Part(x)];
    KeyIdentifiesParts(Combo([x, y]), Combo([y, x]));
  }

  /** How many of the legs are on `team`. */
  function TeamCount(legs: seq<Leg>, team: string): (n: nat)
    ensures n <= |legs|
  {
    if |legs| == 0 then 0
    else (if legs[0].team == team then 1 else 0) + TeamCount(legs[1..], team)
  }

  /** Some team holds more than two of the legs. */
  predicate TeamOverloaded(legs: seq<Leg>)
  {
    exists i | 0 <= i < |legs| :: TeamCount(legs, legs[i].team) > 2
  }

  /** A trio overloads a team exactly when all three legs share it. */
  lemma TrioTeamRule(legs: seq<Leg>)
    requires |legs| == 3
    ensures TeamOverloaded(legs) <==> legs[0].team == legs[1].team == legs[2].team
  {
    forall t {
      TeamCountOfThree(legs, t);
    }
    if legs[0].team == legs[1].team == legs[2].team {
      assert TeamCount(legs, legs[0].team) == 3;
    }
  }

  lemma TeamCountOfThree(legs: seq<Leg>, t: string)
    requires |legs| == 3
    ensures TeamCount(legs, t) == (if legs[0].team == t then 1 else 0) + (if legs[1].team == t then 1 else 0)
                                  + (if legs[2].team == t then 1 else 0)
  {
    var tail := legs[1..];
    var last := tail[1..];
    assert tail[0] == legs[1] && last[0] == legs[2] && last[1..] == [];
    assert TeamCount(last, t) == (if legs[2].team == t then 1 else 0) + TeamCount(last[1..], t);
    assert TeamCount(tail, t) == (if legs[1].team == t then 1 else 0) + TeamCount(last, t);
  }

  predicate Admissible(kind: Kind, c: Combo)
  {
    var l := c.legs;
    match kind
    case Pair =>
      |l| == 2 && !(l[0].player == l[1].player || l[0].team == l[1].team)
    case Trio =>
      && |l| == 3
      && !TeamOverloaded(l)
      && !(l[0].player == l[1].player || l[0].player == l[2].player || l[1].player == l[2].player)
  }

  /** The admission rule in plain terms: the kind's number of legs, all of
      different players, and not all on one team (for a pair: on two
      different teams). */
  lemma AdmissibleRule(kind: Kind, c: Combo)
    ensures Admissible(kind, c) <==>
              && |c.legs| == Arity(kind) && DistinctPlayers(c.legs)
              && (kind == Pair ==> c.legs[0].team != c.legs[1].team)
              && (kind == Trio ==> !(c.legs[0].team == c.legs[1].team == c.legs[2].team))
  {
    var l := c.legs;
    if |l| == 3 {
      TrioTeamRule(l);
    }
    if 2 <= |l| <= 3 && (|l| == 2 ==> l[0].player != l[1].player)
       && (|l| == 3 ==> l[0].player != l[1].player && l[0].player != l[2].player && l[1].player != l[2].player) {
      PlayersOfShape(l);
    }
  }

  function KeySet(cs: seq<Combo>): set<seq<KeyPart>>
  {
    set c | c in cs :: Key(c)
  }

  ghost predicate DistinctKeys(cs: seq<Combo>)
  {
    forall a, b | 0 <= a < b < |cs| :: Key(cs[a]) != Key(cs[b])
  }

  /** Admissibility for a kind, as a predicate value. */
  function AdmissibleFor(kind: Kind): Combo -> bool
  {
    c => Admissible(kind, c)
  }

  /** The single pass over the candidates: a key already seen is skipped,
      then an inadmissible candidate is skipped, otherwise the candidate is
      kept and its key recorded. The candidate kept for a key is the first
      admissible one with it. */
  function Dedup(kind: Kind, candidates: seq<Combo>, seen: set<seq<KeyPart>>): (out: seq<Combo>)
    ensures forall c | c in out :: c in candidates && Admissible(kind, c) && Key(c) !in seen
    ensures DistinctKeys(out)
    ensures forall c | c in candidates && Admissible(kind, c) :: Key(c) in seen + KeySet(out)
    ensures KeepsFirstsOf(AdmissibleFor(kind), Key, candidates, seen, out)
    decreases |candidates|
  {
    if |candidates| == 0 then []
    else
      var c := candidates[0];
      var key := Key(c);
      assert candidates == [c] + candidates[1..];
      if key in seen || !Admissible(kind, c) then
        var rest := Dedup(kind, candidates[1..], seen);
        KeepsFirstsSkip(AdmissibleFor(kind), Key, c, candidates[1..], seen, rest);
        rest
      else
        var rest := Dedup(kind, candidates[1..], seen + {key});
        KeptFirst(c, rest, seen);
        KeepsFirstsKeep(AdmissibleFor(kind), Key, c, candidates[1..], seen, rest);
        [c] + rest
  }

  /** The kept candidates appear in candidate order: the result embeds in
      the candidates at strictly increasing positions, and no admissible
      candidate before a kept one shares its key. */
  lemma {:induction false} DedupInOrder(kind: Kind, candidates: seq<Combo>, seen: set<seq<KeyPart>>)
    returns (idx: seq<nat>)
    ensures Embeds(Dedup(kind, candidates, seen), candidates, idx)
    ensures forall a, m | 0 <= a < |idx| && 0 <= m < idx[a] < |candidates| && Admissible(kind, candidates[m]) ::
              Key(candidates[m]) != Key(candidates[idx[a]])
    decreases |candidates|
  {
    idx := DedupFirstAt(kind, candidates, seen);
  }

  lemma {:induction false} DedupFirstAt(kind: Kind, candidates: seq<Combo>, seen: set<seq<KeyPart>>)
    returns (idx: seq<nat>)
    ensures Embeds(Dedup(kind, candidates, seen), candidates, idx)
    ensures FirstAt(AdmissibleFor(kind), Key, candidates, idx)
    decreases |candidates|
  {
    if |candidates| == 0 {
      idx := [];
    } else {
      var c, tail := candidates[0], candidates[1..];
      assert candidates == [c] + tail;
      if Key(c) in seen || !Admissible(kind, c) {
        var rest := DedupFirstAt(kind, tail, seen);
        idx := DedupSkipStep(kind, c, tail, seen, rest);
      } else {
        var rest := DedupFirstAt(kind, tail, seen + {Key(c)});
        idx := DedupKeepStep(kind, c, tail, seen, rest);
      }
    }
  }

  /** A skipped first candidate shifts the kept positions by one. */
  lemma DedupSkipStep(kind: Kind, c: Combo, tail: seq<Combo>, seen: set<seq<KeyPart>>, rest: seq<nat>)
    returns (idx: seq<nat>)
    requires Key(c) in seen || !Admissible(kind, c)
    requires Embeds(Dedup(kind, tail, seen), tail, rest)
    requires FirstAt(AdmissibleFor(kind), Key, tail, rest)
    ensures Embeds(Dedup(kind, [c] + tail, seen), [c] + tail, idx)
    ensures FirstAt(AdmissibleFor(kind), Key, [c] + tail, idx)
  {
    assert ([c] + tail)[1..] == tail;
    assert Dedup(kind, [c] + tail, seen) == Dedup(kind, tail, seen);
    idx := FirstAtSkip(AdmissibleFor(kind), Key, c, tail, seen, Dedup(kind, tail, seen), rest);
  }

  /** A kept first candidate takes position 0 and shifts the rest by one. */
  lemma DedupKeepStep(kind: Kind, c: Combo, tail: seq<Combo>, seen: set<seq<KeyPart>>, rest: seq<nat>)
    returns (idx: seq<nat>)
    requires Key(c) !in seen && Admissible(kind, c)
    requires Embeds(Dedup(kind, tail, seen + {Key(c)}), tail, rest)
    requires FirstAt(AdmissibleFor(kind), Key, tail, rest)
    ensures Embeds(Dedup(kind, [c] + tail, seen), [c] + tail, idx)
    ensures FirstAt(AdmissibleFor(kind), Key, [c] + tail, idx)
  {
    assert ([c] + tail)[1..] == tail;
    assert Dedup(kind, [c] + tail, seen) == [c] + Dedup(kind, tail, seen + {Key(c)});
    idx := FirstAtKeep(AdmissibleFor(kind), Key, c, tail, seen, Dedup(kind, tail, seen + {Key(c)}), rest);
  }

  lemma KeptFirst(c: Combo, rest: seq<Combo>, seen: set<seq<KeyPart>>)
    requires DistinctKeys(rest)
    requires forall d | d in rest :: Key(d) !in seen + {Key(c)}
    ensures DistinctKeys([c] + rest)
    ensures KeySet([c] + rest) == {Key(c)} + KeySet(rest)
  {
    var out := [c] + rest;
    forall a, b | 0 <= a < b < |out|
      ensures Key(out[a]) != Key(out[b])
    {
      assert out[b] == rest[b - 1];
      if a > 0 {
        assert out[a] == rest[a - 1];
      }
    }
  }

  // ---------------------------------------------------------------------
  // Pair candidates: (i, j) for i < j, i outermost

  function PairAt(legs: seq<Leg>, i: nat, j: nat): Combo
    requires i < |legs| && j < |legs|
  {
    Combo([legs[i], legs[j]])
  }

  /** Candidates (i, k) for k = j, ..., |legs| - 1. */
  function PairRow(legs: seq<Leg>, i: nat, j: nat): seq<Combo>
    requires i < |legs|
    decreases |legs| - j
  {
    if j >= |legs| then [] else [PairAt(legs, i, j)] + PairRow(legs, i, j + 1)
  }

  /** Candidates (a, b) for i <= a < b. */
  function PairsFrom(legs: seq<Leg>, i: nat): seq<Combo>
    decreases |legs| - i
  {
    if i >= |legs| then [] else PairRow(legs, i, i + 1) + PairsFrom(legs, i + 1)
  }

  lemma {:induction false} PairRowSound(legs: seq<Leg>, i: nat, j: nat, c: Combo)
    requires i < |legs| && c in PairRow(legs, i, j)
    ensures exists k :: j <= k < |legs| && c == PairAt(legs, i, k)
    decreases |legs| - j
  {
    if c != PairAt(legs, i, j) {
      PairRowSound(legs, i, j + 1, c);
    }
  }

  lemma {:induction false} PairRowComplete(legs: seq<Leg>, i: nat, j: nat, k: nat)
    requires i < |legs| && j <= k < |legs|
    ensures PairAt(legs, i, k) in PairRow(legs, i, j)
    decreases |legs| - j
  {
    assert PairRow(legs, i, j) == [PairAt(legs, i, j)] + PairRow(legs, i, j + 1);
    if j < k {
      PairRowComplete(legs, i, j + 1, k);
    }
  }

  lemma {:induction false} PairsFromSound(legs: seq<Leg>, i: nat, c: Combo)
    requires c in PairsFrom(legs, i)
    ensures exists a, b :: i <= a < b < |legs| && c == PairAt(legs, a, b)
    decreases |legs| - i
  {
    if c in PairRow(legs, i, i + 1) {
      PairRowSound(legs, i, i + 1, c);
    } else {
      PairsFromSound(legs, i + 1, c);
    }
  }

  /** A pair whose first index is i sits in the first row of PairsFrom(i). */
  lemma PairsFromHere(legs: seq<Leg>, i: nat, b: nat)
    requires i < b < |legs|
    ensures PairAt(legs, i, b) in PairsFrom(legs, i)
  {
    assert PairsFrom(legs, i) == PairRow(legs, i, i + 1) + PairsFrom(legs, i + 1);
    PairRowComplete(legs, i, i + 1, b);
  }

  /** Whatever PairsFrom(a) holds, PairsFrom(i) holds for i <= a. */
  lemma {:induction false} PairsFromLater(legs: seq<Leg>, i: nat, a: nat, c: Combo)
    requires i <= a && c in PairsFrom(legs, a)
    ensures c in PairsFrom(legs, i)
    decreases a - i
  {
    if i < a {
      PairsFromLater(legs, i + 1, a, c);
      assert PairsFrom(legs, i) == PairRow(legs, i, i + 1) + PairsFrom(legs, i + 1);
    }
  }

  lemma PairsFromComplete(legs: seq<Leg>, i: nat, a: nat, b: nat)
    requires i <= a < b < |legs|
    ensures PairAt(legs, a, b) in PairsFrom(legs, i)
  {
    PairsFromHere(legs, a, b);
    PairsFromLater(legs, i, a, PairAt(legs, a, b));
  }

  // ---------------------------------------------------------------------
  // Trio candidates: (i, j, k) for i < j < k, i outermost

  function TrioAt(legs: seq<Leg>, i: nat, j: nat, k: nat): Combo
    requires i < |legs| && j < |legs| && k < |legs|
  {
    Combo([legs[i], legs[j], legs[k]])
  }

  /** Candidates (i, j, m) for m = k, ..., |legs| - 1. */
  function TrioRow(legs: seq<Leg>, i: nat, j: nat, k: nat): seq<Combo>
    requires i < |legs| && j < |legs|
    decreases |legs| - k
  {
    if k >= |legs| then [] else [TrioAt(legs, i, j, k)] + TrioRow(legs, i, j, k + 1)
  }

  /** Candidates (i, b, c) for j <= b < c. */
  function TrioPlane(legs: seq<Leg>, i: nat, j: nat): seq<Combo>
    requires i < |legs|
    decreases |legs| - j
  {
    if j >= |legs| then [] else TrioRow(legs, i, j, j + 1) + TrioPlane(legs, i, j + 1)
  }

  /** Candidates (a, b, c) for i <= a < b < c. */
  function TriosFrom(legs: seq<Leg>, i: nat): seq<Combo>
    decreases |legs| - i
  {
    if i >= |legs| then [] else TrioPlane(legs, i, i + 1) + TriosFrom(legs, i + 1)
  }

  lemma {:induction false} TrioRowSound(legs: seq<Leg>, i: nat, j: nat, k: nat, c: Combo)
    requires i < |legs| && j < |legs| && c in TrioRow(legs, i, j, k)
    ensures exists m :: k <= m < |legs| && c == TrioAt(legs, i, j, m)
    decreases |legs| - k
  {
    if c != TrioAt(legs, i, j, k) {
      TrioRowSound(legs, i, j, k + 1, c);
    }
  }

  lemma {:induction false} TrioRowComplete(legs: seq<Leg>, i: nat, j: nat, k: nat, m: nat)
    requires i < |legs| && j < |legs| && k <= m < |legs|
    ensures TrioAt(legs, i, j, m) in TrioRow(legs, i, j, k)
    decreases |legs| - k
  {
    assert TrioRow(legs, i, j, k) == [TrioAt(legs, i, j, k)] + TrioRow(legs, i, j, k + 1);
    if k < m {
      TrioRowComplete(legs, i, j, k + 1, m);
    }
  }

  lemma {:induction false} TrioPlaneSound(legs: seq<Leg>, i: nat, j: nat, c: Combo)
    requires i < |legs| && c in TrioPlane(legs, i, j)
    ensures exists b, m :: j <= b < m < |legs| && c == TrioAt(legs, i, b, m)
    decreases |legs| - j
  {
    if c in TrioRow(legs, i, j, j + 1) {
      TrioRowSound(legs, i, j, j + 1, c);
    } else {
      TrioPlaneSound(legs, i, j + 1, c);
    }
  }

  lemma {:induction false} TrioPlaneComplete(legs: seq<Leg>, i: nat, j: nat, b: nat, m: nat)
    requires i < |legs| && j <= b < m < |legs|
    ensures TrioAt(legs, i, b, m) in TrioPlane(legs, i, j)
    decreases |legs| - j
  {
    var here := TrioRow(legs, i, j, j + 1);
    var later := TrioPlane(legs, i, j + 1);
    assert TrioPlane(legs, i, j) == here + later;
    if b == j {
      TrioRowComplete(legs, i, j, j + 1, m);
      assert TrioAt(legs, i, b, m) in here;
    } else {
      TrioPlaneComplete(legs, i, j + 1, b, m);
      assert TrioAt(legs, i, b, m) in later;
    }
  }

  lemma {:induction false} TriosFromSound(legs: seq<Leg>, i: nat, c: Combo)
    requires c in TriosFrom(legs, i)
    ensures exists a, b, m :: i <= a < b < m < |legs| && c == TrioAt(legs, a, b, m)
    decreases |legs| - i
  {
    if c in TrioPlane(legs, i, i + 1) {
      TrioPlaneSound(legs, i, i + 1, c);
    } else {
      TriosFromSound(legs, i + 1, c);
    }
  }

  /** A trio whose first index is i sits in the first plane of TriosFrom(i). */
  lemma TriosFromHere(legs: seq<Leg>, i: nat, b: nat, m: nat)
    requires i < b < m < |legs|
    ensures TrioAt(legs, i, b, m) in TriosFrom(legs, i)
  {
    assert TriosFrom(legs, i) == TrioPlane(legs, i, i + 1) + TriosFrom(legs, i + 1);
    TrioPlaneComplete(legs, i, i + 1, b, m);
  }

  /** Whatever TriosFrom(a) holds, TriosFrom(i) holds for i <= a. */
  lemma {:induction false} TriosFromLater(legs: seq<Leg>, i: nat, a: nat, c: Combo)
    requires i <= a && c in TriosFrom(legs, a)
    ensures c in TriosFrom(legs, i)
    decreases a - i
  {
    if i < a {
      TriosFromLater(legs, i + 1, a, c);
      assert TriosFrom(legs, i) == TrioPlane(legs, i, i + 1) + TriosFrom(legs, i + 1);
    }
  }

  lemma TriosFromComplete(legs: seq<Leg>, i: nat, a: nat, b: nat, m: nat)
    requires i <= a < b < m < |legs|
    ensures TrioAt(legs, a, b, m) in TriosFrom(legs, i)
  {
    TriosFromHere(legs, a, b, m);
    TriosFromLater(legs, i, a, TrioAt(legs, a, b, m));
  }

  // ---------------------------------------------------------------------
  // The generators

  /** The admissible pairs, one per canonical key, in enumeration order. */
  function GeneratePairs(legs: seq<Leg>): (out: seq<Combo>)
    ensures forall c | c in out :: exists i, j :: 0 <= i < j < |legs| && c == PairAt(legs, i, j)
    ensures forall c | c in out ::
              |c.legs| == 2 && c.legs[0].player != c.legs[1].player && c.legs[0].team != c.legs[1].team
    ensures DistinctKeys(out)
    ensures forall i, j | 0 <= i < j < |legs| && Admissible(Pair, PairAt(legs, i, j)) ::
              Key(PairAt(legs, i, j)) in KeySet(out)
  {
    var candidates := PairsFrom(legs, 0);
    var out := Dedup(Pair, candidates, {});
    forall c | c in out
      ensures exists i, j :: 0 <= i < j < |legs| && c == PairAt(legs, i, j)
    {
      PairsFromSound(legs, 0, c);
    }
    forall i, j | 0 <= i < j < |legs|
      ensures PairAt(legs, i, j) in candidates
    {
      PairsFromComplete(legs, 0, i, j);
    }
    out
  }

  /** The admissible trios, one per canonical key, in enumeration order. */
  function GenerateTrios(legs: seq<Leg>): (out: seq<Combo>)
    ensures forall c | c in out :: exists i, j, k :: 0 <= i < j < k < |legs| && c == TrioAt(legs, i, j, k)
    ensures forall c | c in out ::
              var l := c.legs;
              && |l| == 3
              && l[0].player != l[1].player && l[0].player != l[2].player && l[1].player != l[2].player
              && !(l[0].team == l[1].team == l[2].team)
    ensures DistinctKeys(out)
    ensures forall i, j, k | 0 <= i < j < k < |legs| && Admissible(Trio, TrioAt(legs, i, j, k)) ::
              Key(TrioAt(legs, i, j, k)) in KeySet(out)
  {
    var candidates := TriosFrom(legs, 0);
    var out := Dedup(Trio, candidates, {});
    forall c | c in out
      ensures exists i, j, k :: 0 <= i < j < k < |legs| && c == TrioAt(legs, i, j, k)
      ensures !(c.legs[0].team == c.legs[1].team == c.legs[2].team)
    {
      TriosFromSound(legs, 0, c);
      TrioTeamRule(c.legs);
    }
    forall i, j, k | 0 <= i < j < k < |legs|
      ensures TrioAt(legs, i, j, k) in candidates
    {
      TriosFromComplete(legs, 0, i, j, k);
    }
    out
  }

  /** The generator of either kind. */
  function Generate(kind: Kind, legs: seq<Leg>): (out: seq<Combo>)
    ensures DistinctKeys(out)
    ensures forall c | c in out :: |c.legs| == Arity(kind) && DistinctPlayers(c.legs)
  {
    var out := if kind == Pair then GeneratePairs(legs) else GenerateTrios(legs);
    forall c | c in out
      ensures |c.legs| == Arity(kind) && DistinctPlayers(c.legs)
    {
      PlayersOfShape(c.legs);
    }
    out
  }

  lemma PlayersOfShape(l: seq<Leg>)
    requires |l| == 2 ==> l[0].player != l[1].player
    requires |l| == 3 ==> l[0].player != l[1].player && l[0].player != l[2].player && l[1].player != l[2].player
    requires 2 <= |l| <= 3
    ensures DistinctPlayers(l)
  {
  }

  /** The same two legs offered in both orders: the first order is the one
      kept, and the swapped copy is skipped as already seen. */
  lemma FirstOrderKept(x: Leg, y: Leg)
    requires x.player != y.player && x.team != y.team
    ensures Dedup(Pair, [Combo([x, y]), Combo([y, x])], {}) == [Combo([x, y])]
  {
    var ab, ba := Combo([x, y]), Combo([y, x]);
    PairKeySymmetric(x, y);
    assert Admissible(Pair, ab);
    assert [ab, ba][1..] == [ba];
    assert [ba][1..] == [];
    assert Dedup(Pair, [ba], {} + {Key(ab)}) == [];
    assert Dedup(Pair, [ab, ba], {}) == [ab] + Dedup(Pair, [ba], {} + {Key(ab)});
  }

  /** Two legs of different players on different teams make exactly one pair. */
  lemma TwoLegsOnePair(x: Leg, y: Leg)
    requires x.player != y.player && x.team != y.team
    ensures GeneratePairs([x, y]) == [Combo([x, y])]
  {
    var legs := [x, y];
    assert PairRow(legs, 1, 2) == [];
    assert PairsFrom(legs, 1) == [];
    assert PairRow(legs, 0, 1) == [Combo([x, y])];
    assert PairsFrom(legs, 0) == [Combo([x, y])];
    assert Admissible(Pair, Combo([x, y]));
    assert [Combo([x, y])][1..] == [];
    assert Dedup(Pair, [Combo([x, y])], {}) == [Combo([x, y])];
  }

  /** Two legs on one team make no pair at all. */
  lemma TwoLegsSameTeam(x: Leg, y: Leg)
    requires x.team == y.team
    ensures Generate(Pair, [x, y]) == []
  {
    var legs := [x, y];
    assert PairRow(legs, 1, 2) == [];
    assert PairsFrom(legs, 1) == [];
    assert PairRow(legs, 0, 1) == [Combo([x, y])];
    assert PairsFrom(legs, 0) == [Combo([x, y])];
    assert !Admissible(Pair, Combo([x, y]));
    assert [Combo([x, y])][1..] == [];
    assert Dedup(Pair, [Combo([x, y])], {}) == [];
  }
}

=== FILE: Filter.dfy ===
/** Dropping the failures of a batch: every loop of the engine that meets
    `None` (or catches an exception) skips that item and keeps the rest in
    order. */
module Filter {
  import opened Wrappers

  /** The positions of the successes from index i on, in increasing order. */
  function Successes<T>(opts: seq<Option<T>>, i: nat): (idx: seq<nat>)
    requires i <= |opts|
    ensures forall a | 0 <= a < |idx| :: i <= idx[a] < |opts| && opts[idx[a]].Some?
    ensures forall a, b | 0 <= a < b < |idx| :: idx[a] < idx[b]
    ensures |idx| <= |opts| - i
    decreases |opts| - i
  {
    if i == |opts| then []
    else if opts[i].Some? then [i] + Successes(opts, i + 1)
    else Successes(opts, i + 1)
  }

  /** Every success has its position among the success positions. */
  lemma {:induction false} SuccessesComplete<T>(opts: seq<Option<T>>, i: nat)
    requires i <= |opts|
    ensures forall n | i <= n < |opts| && opts[n].Some? :: n in Successes(opts, i)
    decreases |opts| - i
  {
    if i < |opts| {
      SuccessesComplete(opts, i + 1);
    }
  }

  /** Every position from i on is a success exactly when there are as many
      success positions as positions, and none is exactly when there are
      no success positions. */
  lemma {:induction false} SuccessesCount<T>(opts: seq<Option<T>>, i: nat)
    requires i <= |opts|
    ensures |Successes(opts, i)| == |opts| - i <==> forall n | i <= n < |opts| :: opts[n].Some?
    ensures |Successes(opts, i)| == 0 <==> forall n | i <= n < |opts| :: opts[n].None?
    decreases |opts| - i
  {
    if i < |opts| {
      SuccessesCount(opts, i + 1);
    }
  }

  /** The values at the given success positions, in the positions' order. */
  function ValuesAt<T>(opts: seq<Option<T>>, idx: seq<nat>): (vs: seq<T>)
    requires forall a | 0 <= a < |idx| :: idx[a] < |opts| && opts[idx[a]].Some?
    ensures |vs| == |idx|
    ensures forall a | 0 <= a < |idx| :: vs[a] == opts[idx[a]].value
  {
    seq(|idx|, a requires 0 <= a < |idx| => opts[idx[a]].value)
  }

  lemma ValuesAtSound<T>(opts: seq<Option<T>>, idx: seq<nat>, lo: nat)
    requires forall a | 0 <= a < |idx| :: lo <= idx[a] < |opts| && opts[idx[a]].Some?
    ensures forall r | r in ValuesAt(opts, idx) :: exists n | lo <= n < |opts| :: opts[n] == Some(r)
  {
    var vs := ValuesAt(opts, idx);
    forall r | r in vs
      ensures exists n | lo <= n < |opts| :: opts[n] == Some(r)
    {
      var a :| 0 <= a < |vs| && vs[a] == r;
      assert opts[idx[a]] == Some(r);
    }
  }

  lemma ValuesAtComplete<T>(opts: seq<Option<T>>, idx: seq<nat>, lo: nat)
    requires forall a | 0 <= a < |idx| :: idx[a] < |opts| && opts[idx[a]].Some?
    requires forall n | lo <= n < |opts| && opts[n].Some? :: n in idx
    ensures forall n | lo <= n < |opts| && opts[n].Some? :: opts[n].value in ValuesAt(opts, idx)
  {
    var vs := ValuesAt(opts, idx);
    forall n | lo <= n < |opts| && opts[n].Some?
      ensures opts[n].value in vs
    {
      var a :| 0 <= a < |idx| && idx[a] == n;
      assert vs[a] == opts[n].value;
    }
  }

  /** The successful entries from index i on, in order: every entry of the
      result is a success, and every success is kept. */
  function Present<T>(opts: seq<Option<T>>, i: nat): (out: seq<T>)
    requires i <= |opts|
    ensures |out| <= |opts| - i
    ensures forall r | r in out :: exists n | i <= n < |opts| :: opts[n] == Some(r)
    ensures forall n | i <= n < |opts| && opts[n].Some? :: opts[n].value in out
    ensures |out| == |opts| - i <==> forall n | i <= n < |opts| :: opts[n].Some?
    ensures |out| == 0 <==> forall n | i <= n < |opts| :: opts[n].None?
  {
    var idx := Successes(opts, i);
    SuccessesComplete(opts, i);
    SuccessesCount(opts, i);
    ValuesAtSound(opts, idx, i);
    ValuesAtComplete(opts, idx, i);
    ValuesAt(opts, idx)
  }

  /** Exactly one kept entry per success, in order: entry a of the result is
      the success at position idx[a], the positions increase, and every
      success has its position among them. */
  lemma PresentIndices<T>(opts: seq<Option<T>>, i: nat) returns (idx: seq<nat>)
    requires i <= |opts|
    ensures |idx| == |Present(opts, i)|
    ensures forall a | 0 <= a < |idx| :: i <= idx[a] < |opts| && opts[idx[a]] == Some(Present(opts, i)[a])
    ensures forall a, b | 0 <= a < b < |idx| :: idx[a] < idx[b]
    ensures forall n | i <= n < |opts| && opts[n].Some? :: n in idx
  {
    idx := Successes(opts, i);
    SuccessesComplete(opts, i);
  }

  /** `out` is `xs` with some entries left out: entry a of `out` is entry
      idx[a] of `xs`, at strictly increasing positions. */
  ghost predicate Embeds<T>(out: seq<T>, xs: seq<T>, idx: seq<nat>)
  {
    && |idx| == |out|
    && (forall a | 0 <= a < |idx| :: idx[a] < |xs| && out[a] == xs[idx[a]])
    && (forall a, b | 0 <= a < b < |idx| :: idx[a] < idx[b])
  }

  /** Every position one further on. */
  function Shift(idx: seq<nat>): (r: seq<nat>)
    ensures |r| == |idx|
    ensures forall a | 0 <= a < |idx| :: r[a] == idx[a] + 1
  {
    seq(|idx|, a requires 0 <= a < |idx| => idx[a] + 1)
  }

  /** Keeping the first entry extends an embedding. */
  lemma EmbedsKeep<T>(c: T, out: seq<T>, xs: seq<T>, idx: seq<nat>)
    requires Embeds(out, xs, idx)
    ensures Embeds([c] + out, [c] + xs, [0] + Shift(idx))
  {
    var idx' := [0] + Shift(idx);
    forall a | 1 <= a < |idx'|
      ensures idx'[a] < |[c] + xs| && ([c] + out)[a] == ([c] + xs)[idx'[a]]
    {
      assert idx'[a] == idx[a - 1] + 1;
    }
  }

  /** Dropping the first entry keeps an embedding. */
  lemma EmbedsSkip<T>(c: T, out: seq<T>, xs: seq<T>, idx: seq<nat>)
    requires Embeds(out, xs, idx)
    ensures Embeds(out, [c] + xs, Shift(idx))
  {
  }

  // ---------------------------------------------------------------------
  // Keeping the first acceptable item of each key

  /** Item n is acceptable and no acceptable item before it has its key. */
  ghost predicate FirstWith<T, K>(ok: T -> bool, key: T -> K, xs: seq<T>, n: nat)
    requires n < |xs|
  {
    && ok(xs[n])
    && forall m | 0 <= m < n && ok(xs[m]) :: key(xs[m]) != key(xs[n])
  }

  /** Every item that is the first acceptable one with its key, and whose
      key is not in `seen`, is in `out`. */
  ghost predicate KeepsFirstsOf<T, K>(ok: T -> bool, key: T -> K, xs: seq<T>, seen: set<K>, out: seq<T>)
  {
    forall n {:trigger FirstWith(ok, key, xs, n)} |
      0 <= n < |xs| && FirstWith(ok, key, xs, n) && key(xs[n]) !in seen ::
      xs[n] in out
  }

  /** Items after the first are first with their key in the whole sequence
      only if they are in the tail. */
  lemma FirstWithTail<T, K>(ok: T -> bool, key: T -> K, c: T, tail: seq<T>, n: nat)
    requires 0 < n < |[c] + tail| && FirstWith(ok, key, [c] + tail, n)
    ensures ([c] + tail)[n] == tail[n - 1]
    ensures FirstWith(ok, key, tail, n - 1)
    ensures ok(c) ==> key(c) != key(tail[n - 1])
  {
    var cs := [c] + tail;
    assert cs[0] == c;
    forall m | 0 <= m < n - 1 && ok(tail[m])
      ensures key(tail[m]) != key(tail[n - 1])
    {
      assert tail[m] == cs[m + 1];
    }
  }

  /** Skipping a head that is not acceptable or whose key is seen keeps
      every first item of the tail. */
  lemma KeepsFirstsSkip<T, K>(ok: T -> bool, key: T -> K, c: T, tail: seq<T>, seen: set<K>, rest: seq<T>)
    requires !ok(c) || key(c) in seen
    requires KeepsFirstsOf(ok, key, tail, seen, rest)
    ensures KeepsFirstsOf(ok, key, [c] + tail, seen, rest)
  {
    var cs := [c] + tail;
    forall n | 0 <= n < |cs| && FirstWith(ok, key, cs, n) && key(cs[n]) !in seen
      ensures cs[n] in rest
    {
      if n > 0 {
        FirstWithTail(ok, key, c, tail, n);
      }
    }
  }

  /** Keeping an acceptable head and adding its key to the seen set keeps
      every first item. */
  lemma KeepsFirstsKeep<T, K>(ok: T -> bool, key: T -> K, c: T, tail: seq<T>, seen: set<K>, rest: seq<T>)
    requires ok(c)
    requires KeepsFirstsOf(ok, key, tail, seen + {key(c)}, rest)
    ensures KeepsFirstsOf(ok, key, [c] + tail, seen, [c] + rest)
  {
    var cs := [c] + tail;
    forall n | 0 <= n < |cs| && FirstWith(ok, key, cs, n) && key(cs[n]) !in seen
      ensures cs[n] in [c] + rest
    {
      if n > 0 {
        FirstWithTail(ok, key, c, tail, n);
      }
    }
  }

  /** No acceptable item before a kept position shares its key. */
  ghost predicate FirstAt<T, K>(ok: T -> bool, key: T -> K, xs: seq<T>, idx: seq<nat>)
  {
    forall a, m | 0 <= a < |idx| && 0 <= m < idx[a] < |xs| && ok(xs[m]) :: key(xs[m]) != key(xs[idx[a]])
  }

  /** Positions after the first come from the tail, where the kept items'
      keys are outside `seen`; the head, when acceptable, has its key in it. */
  lemma FirstAtStep<T, K>(ok: T -> bool, key: T -> K, c: T, tail: seq<T>, seen: set<K>,
                              rest: seq<nat>, idx: seq<nat>, skip: nat)
    requires forall r | 0 <= r < |rest| :: rest[r] < |tail| && key(tail[rest[r]]) !in seen
    requires FirstAt(ok, key, tail, rest)
    requires ok(c) ==> key(c) in seen
    requires skip <= 1 && |idx| == |rest| + skip && (skip == 1 ==> idx[0] == 0)
    requires forall r | 0 <= r < |rest| :: idx[r + skip] == rest[r] + 1
    ensures FirstAt(ok, key, [c] + tail, idx)
  {
    var cs := [c] + tail;
    forall a, m | 0 <= a < |idx| && 0 <= m < idx[a] < |cs| && ok(cs[m])
      ensures key(cs[m]) != key(cs[idx[a]])
    {
      var r := a - skip;
      assert idx[r + skip] == rest[r] + 1;
      assert cs[idx[a]] == tail[rest[r]];
      if m > 0 {
        assert cs[m] == tail[m - 1];
      }
    }
  }

  /** Skipping a head that is not acceptable or whose key is seen keeps the
      kept items first with their keys. */
  lemma FirstAtSkip<T, K>(ok: T -> bool, key: T -> K, c: T, tail: seq<T>, seen: set<K>,
                          out: seq<T>, rest: seq<nat>)
    returns (idx: seq<nat>)
    requires !ok(c) || key(c) in seen
    requires Embeds(out, tail, rest)
    requires forall x | x in out :: key(x) !in seen
    requires FirstAt(ok, key, tail, rest)
    ensures Embeds(out, [c] + tail, idx)
    ensures FirstAt(ok, key, [c] + tail, idx)
  {
    EmbedsSkip(c, out, tail, rest);
    idx := Shift(rest);
    forall r | 0 <= r < |rest|
      ensures rest[r] < |tail| && key(tail[rest[r]]) !in seen
    {
      assert out[r] in out;
    }
    FirstAtStep(ok, key, c, tail, seen, rest, idx, 0);
  }

  /** Keeping an acceptable head whose key is unseen, with the tail filtered
      against the seen set plus that key, keeps the kept items first with
      their keys. */
  lemma FirstAtKeep<T, K>(ok: T -> bool, key: T -> K, c: T, tail: seq<T>, seen: set<K>,
                          out: seq<T>, rest: seq<nat>)
    returns (idx: seq<nat>)
    requires ok(c)
    requires Embeds(out, tail, rest)
    requires forall x | x in out :: key(x) !in seen + {key(c)}
    requires FirstAt(ok, key, tail, rest)
    ensures Embeds([c] + out, [c] + tail, idx)
    ensures FirstAt(ok, key, [c] + tail, idx)
  {
    EmbedsKeep(c, out, tail, rest);
    idx := [0] + Shift(rest);
    forall r | 0 <= r < |rest|
      ensures rest[r] < |tail| && key(tail[rest[r]]) !in seen + {key(c)}
      ensures idx[r + 1] == rest[r] + 1
    {
      assert out[r] in out;
      assert idx[r + 1] == Shift(rest)[r];
    }
    FirstAtStep(ok, key, c, tail, seen + {key(c)}, rest, idx, 1);
  }
}

=== FILE: Legs.dfy ===
/** The candidate legs for multi-leg bets: each board row of a tracked
    category, resolved to the player's team, today's opponent, the model's
    prediction and the player's spread. Rows that cannot be resolved are
    skipped. */
module Legs {
  import opened Wrappers
  import opened Filter
  import opened Schedule
  import opened ResidualStd
  import opened CanonicalKey

  /** One row of the pick'em board. */
  datatype BoardRow = BoardRow(name: string, category: string, line: real)

  /** A resolved candidate leg. */
  datatype Leg = Leg(
    player: string,
    category: string,
    statLine: string,
    line: real,
    prediction: real,
    team: string,
    opponent: string,
    stdDev: real)

  /** The part of a leg that identifies it in a combination key. */
  function Part(l: Leg): KeyPart
  {
    KeyPart(l.player, l.category, l.line)
  }

  /** The external inputs of resolution: the team column of each player's
      rows in the dataset of each stat, and the prediction model, which
      may fail (None). */
  datatype Sources = Sources(
    teamsOf: (string, string) -> seq<string>,
    predict: (BoardRow, string, string) -> Option<real>)

  /** Resolves one row for the stat `statLine`. A player without rows, a
      team without a game today, or a failed prediction skips the row. */
  function ResolveLeg(row: BoardRow, statLine: string, src: Sources, games: seq<Game>, stds: StdTable)
    : (r: Option<Leg>)
    ensures r.None? <==>
              || |src.teamsOf(row.name, statLine)| == 0
              || Opponent(games, LatestTeam(src.teamsOf(row.name, statLine)).value).None?
              || src.predict(row, statLine, Opponent(games, LatestTeam(src.teamsOf(row.name, statLine)).value).value).None?
    ensures r.Some? ==>
              && Opponent(games, r.value.team) == Some(r.value.opponent)
              && r.value.player == row.name && r.value.category == row.category && r.value.line == row.line
              && r.value.statLine == statLine
              && src.teamsOf(row.name, statLine)[|src.teamsOf(row.name, statLine)| - 1] == r.value.team
              && src.predict(row, statLine, r.value.opponent) == Some(r.value.prediction)
              && r.value.stdDev == StdFor(stds, row.name, statLine)
  {
    var team := LatestTeam(src.teamsOf(row.name, statLine));
    if team.None? then None
    else
      var opponent := Opponent(games, team.value);
      if opponent.None? then None
      else
        var prediction := src.predict(row, statLine, opponent.value);
        if prediction.None? then None
        else
          Some(Leg(row.name, row.category, statLine, row.line, prediction.value, team.value, opponent.value,
                   StdFor(stds, row.name, statLine)))
  }

  /** What one board row contributes to the legs of `category`: nothing
      when it is of another category or cannot be resolved. */
  function RowLeg(row: BoardRow, category: string, statLine: string, src: Sources, games: seq<Game>, stds: StdTable)
    : Option<Leg>
  {
    if row.category != category then None else ResolveLeg(row, statLine, src, games, stds)
  }

  function RowLegs(category: string, statLine: string, board: seq<BoardRow>, src: Sources, games: seq<Game>,
                   stds: StdTable)
    : (opts: seq<Option<Leg>>)
    ensures |opts| == |board|
    ensures forall k | 0 <= k < |board| :: opts[k] == RowLeg(board[k], category, statLine, src, games, stds)
  {
    seq(|board|, k requires 0 <= k < |board| => RowLeg(board[k], category, statLine, src, games, stds))
  }

  /** The resolved legs of the board rows in `category`, in board order:
      each comes from a row of the category, and every row of the category
      that resolves contributes its leg. */
  function CategoryLegs(category: string, statLine: string, board: seq<BoardRow>, src: Sources, games: seq<Game>,
                        stds: StdTable)
    : (legs: seq<Leg>)
    ensures |legs| <= |board|
    ensures forall l | l in legs :: exists k | 0 <= k < |board| ::
              board[k].category == category && ResolveLeg(board[k], statLine, src, games, stds) == Some(l)
    ensures forall k | 0 <= k < |board| && board[k].category == category
                       && ResolveLeg(board[k], statLine, src, games, stds).Some? ::
              ResolveLeg(board[k], statLine, src, games, stds).value in legs
    ensures forall l | l in legs ::
              && l.category == category && l.statLine == statLine
              && Opponent(games, l.team) == Some(l.opponent)
              && (exists row | row in board :: row.name == l.player && row.category == l.category && row.line == l.line)
              && l.stdDev == StdFor(stds, l.player, statLine)
  {
    CategoryLegsContents(category, statLine, board, src, games, stds);
    Present(RowLegs(category, statLine, board, src, games, stds), 0)
  }

  lemma CategoryLegsContents(category: string, statLine: string, board: seq<BoardRow>, src: Sources,
                             games: seq<Game>, stds: StdTable)
    ensures var legs := Present(RowLegs(category, statLine, board, src, games, stds), 0);
            && (forall l | l in legs :: exists k | 0 <= k < |board| ::
                  board[k].category == category && ResolveLeg(board[k], statLine, src, games, stds) == Some(l))
            && (forall k | 0 <= k < |board| && board[k].category == category
                           && ResolveLeg(board[k], statLine, src, games, stds).Some? ::
                  ResolveLeg(board[k], statLine, src, games, stds).value in legs)
            && (forall l | l in legs ::
                  && l.category == category && l.statLine == statLine
                  && Opponent(games, l.team) == Some(l.opponent)
                  && (exists row | row in board :: row.name == l.player && row.category == l.category && row.line == l.line)
                  && l.stdDev == StdFor(stds, l.player, statLine))
  {
    var opts := RowLegs(category, statLine, board, src, games, stds);
    var legs := Present(opts, 0);
    forall l | l in legs
      ensures exists k | 0 <= k < |board| ::
                board[k].category == category && ResolveLeg(board[k], statLine, src, games, stds) == Some(l)
      ensures && l.category == category && l.statLine == statLine
              && Opponent(games, l.team) == Some(l.opponent)
              && (exists row | row in board :: row.name == l.player && row.category == l.category && row.line == l.line)
              && l.stdDev == StdFor(stds, l.player, statLine)
    {
      var k :| 0 <= k < |opts| && opts[k] == Some(l);
      assert board[k] in board;
    }
    forall k | 0 <= k < |board| && board[k].category == category
               && ResolveLeg(board[k], statLine, src, games, stds).Some?
      ensures ResolveLeg(board[k], statLine, src, games, stds).value in legs
    {
      assert opts[k].Some?;
    }
  }

  /** Exactly one leg per resolvable row of the category, in board order. */
  lemma CategoryLegsOnePerRow(category: string, statLine: string, board: seq<BoardRow>, src: Sources,
                              games: seq<Game>, stds: StdTable)
    returns (idx: seq<nat>)
    ensures var legs := CategoryLegs(category, statLine, board, src, games, stds);
            && |idx| == |legs|
            && (forall a | 0 <= a < |idx| :: idx[a] < |board| && board[idx[a]].category == category
                                             && ResolveLeg(board[idx[a]], statLine, src, games, stds) == Some(legs[a]))
            && (forall a, b | 0 <= a < b < |idx| :: idx[a] < idx[b])
            && (forall k | 0 <= k < |board| && board[k].category == category
                           && ResolveLeg(board[k], statLine, src, games, stds).Some? :: k in idx)
  {
    var opts := RowLegs(category, statLine, board, src, games, stds);
    idx := PresentIndices(opts, 0);
    forall a | 0 <= a < |idx|
      ensures board[idx[a]].category == category
      ensures ResolveLeg(board[idx[a]], statLine, src, games, stds) == Some(Present(opts, 0)[a])
    {
      assert opts[idx[a]] == RowLeg(board[idx[a]], category, statLine, src, games, stds);
    }
  }

  /** A leg drawn from a row of one of the tracked categories. */
  ghost predicate FromTracked(l: Leg, propDict: seq<(string, string)>, board: seq<BoardRow>, src: Sources,
                              games: seq<Game>, stds: StdTable)
  {
    exists c, k | c in propDict && 0 <= k < |board| ::
      board[k].category == c.0 && ResolveLeg(board[k], c.1, src, games, stds) == Some(l)
  }

  /** Every row of a tracked category that resolves has its leg in `legs`. */
  ghost predicate AllTracked(legs: seq<Leg>, propDict: seq<(string, string)>, board: seq<BoardRow>, src: Sources,
                             games: seq<Game>, stds: StdTable)
  {
    forall c, k | c in propDict && 0 <= k < |board| && board[k].category == c.0
                  && ResolveLeg(board[k], c.1, src, games, stds).Some? ::
      ResolveLeg(board[k], c.1, src, games, stds).value in legs
  }

  /** Every (category, stat) of the tracked map in turn, each contributing
      the legs of its board rows: each leg comes from a tracked category's
      row, and every such row that resolves contributes its leg. */
  function AvailableLegs(propDict: seq<(string, string)>, board: seq<BoardRow>, src: Sources, games: seq<Game>,
                         stds: StdTable)
    : (legs: seq<Leg>)
    ensures forall l | l in legs :: FromTracked(l, propDict, board, src, games, stds)
    ensures AllTracked(legs, propDict, board, src, games, stds)
    ensures forall l | l in legs ::
              && (exists c | c in propDict :: c.0 == l.category && c.1 == l.statLine)
              && Opponent(games, l.team) == Some(l.opponent)
              && (exists row | row in board :: row.name == l.player && row.category == l.category && row.line == l.line)
    ensures WellFormed(stds) ==> forall l | l in legs :: 0.0 < l.stdDev <= MaxStd
  {
    if |propDict| == 0 then []
    else
      var (category, statLine) := propDict[0];
      var first := CategoryLegs(category, statLine, board, src, games, stds);
      var rest := AvailableLegs(propDict[1..], board, src, games, stds);
      AvailableLegsStep(propDict, board, src, games, stds, first, rest);
      first + rest
  }

  lemma AvailableLegsStep(propDict: seq<(string, string)>, board: seq<BoardRow>, src: Sources, games: seq<Game>,
                          stds: StdTable, first: seq<Leg>, rest: seq<Leg>)
    requires |propDict| > 0
    requires first == CategoryLegs(propDict[0].0, propDict[0].1, board, src, games, stds)
    requires forall l | l in rest :: FromTracked(l, propDict[1..], board, src, games, stds)
    requires AllTracked(rest, propDict[1..], board, src, games, stds)
    requires forall l | l in rest ::
               && (exists c | c in propDict[1..] :: c.0 == l.category && c.1 == l.statLine)
               && Opponent(games, l.team) == Some(l.opponent)
               && (exists row | row in board :: row.name == l.player && row.category == l.category && row.line == l.line)
    requires WellFormed(stds) ==> forall l | l in rest :: 0.0 < l.stdDev <= MaxStd
    ensures forall l | l in first + rest :: FromTracked(l, propDict, board, src, games, stds)
    ensures AllTracked(first + rest, propDict, board, src, games, stds)
    ensures forall l | l in first + rest ::
              && (exists c | c in propDict :: c.0 == l.category && c.1 == l.statLine)
              && Opponent(games, l.team) == Some(l.opponent)
              && (exists row | row in board :: row.name == l.player && row.category == l.category && row.line == l.line)
    ensures WellFormed(stds) ==> forall l | l in first + rest :: 0.0 < l.stdDev <= MaxStd
  {
    assert forall c | c in propDict[1..] :: c in propDict;
    assert forall c | c in propDict :: c == propDict[0] || c in propDict[1..];
    forall l | l in first
      ensures FromTracked(l, propDict, board, src, games, stds)
    {
      var k :| 0 <= k < |board| && board[k].category == propDict[0].0
               && ResolveLeg(board[k], propDict[0].1, src, games, stds) == Some(l);
      assert propDict[0] in propDict;
    }
    forall l | l in rest
      ensures FromTracked(l, propDict, board, src, games, stds)
    {
      var c, k :| c in propDict[1..] && 0 <= k < |board| && board[k].category == c.0
                  && ResolveLeg(board[k], c.1, src, games, stds) == Some(l);
    }
  }
}

=== FILE: OddsMath.dfy ===
/** American odds, implied probability, consensus (fair) odds and the Kelly stake. */
module OddsMath {
  import opened Wrappers
  import opened Filter
  import opened Rounding
  import opened Props
  import opened RealArith

  function Abs(n: int): nat
  {
    if n < 0 then -n else n
  }

  function Max0(x: real): (r: real)
  {
    if x > 0.0 then x else 0.0
  }

  /** The probability a price implies: +150 gives 0.4, -150 gives 0.6. */
  function ImpliedProb(odds: int): (p: real)
    ensures 0.0 <= p < 1.0
    ensures p == 0.0 <==> odds == 0
    ensures odds > 0 ==> (p < 0.5 <==> odds > 100) && (p == 0.5 <==> odds == 100)
    ensures odds <= 0 ==> (p >= 0.5 <==> odds <= -100) && (p == 0.5 <==> odds == -100)
  {
    if odds > 0 then
      PositiveOddsProb(odds as real);
      100.0 / (odds as real + 100.0)
    else
      NegativeOddsProb(Abs(odds) as real);
      Abs(odds) as real / (Abs(odds) as real + 100.0)
  }

  // ---------------------------------------------------------------------
  // Kelly stake

  /** The Kelly fraction (b*p - q) / b for net odds b and win probability p. */
  function RawKelly(netOdds: real, probability: real): real
    requires netOdds != 0.0
  {
    (netOdds * probability - (1.0 - probability)) / netOdds
  }

  /** Scaled by `fraction`, rounded to 4 places and floored at 0. */
  function StakeFraction(netOdds: real, probability: real, fraction: real): (k: real)
    requires netOdds != 0.0
    ensures k >= 0.0
  {
    Max0(RoundTo(RawKelly(netOdds, probability) * fraction, 4))
  }

  /** `kelly_criterion` as the source writes it: the dollar net profit
      `payout - stake` stands where the net odds per unit staked belong. */
  function KellyAsWritten(probability: real, payout: real, stake: real, fraction: real): (k: real)
    requires payout != stake
    ensures k >= 0.0
  {
    StakeFraction(payout - stake, probability, fraction)
  }

  /** The Kelly stake with b = (payout - stake) / stake, the net odds per
      unit staked. */
  function Kelly(probability: real, payout: real, stake: real, fraction: real): (k: real)
    requires stake != 0.0 && payout != stake
    ensures k >= 0.0
  {
    StakeFraction((payout - stake) / stake, probability, fraction)
  }

  /** Which behaviour to model where the source's evident intent and its
      code part: `AsWritten` follows the code, `Corrected` the intent. */
  datatype Pricing = AsWritten | Corrected

  /** The Kelly stake a report shows: the source's formula as written, or
      the corrected one. */
  function KellyFor(pricing: Pricing, probability: real, payout: real, stake: real): (k: real)
    requires payout != stake && (pricing == Corrected ==> stake != 0.0)
    ensures k >= 0.0
  {
    match pricing
    case AsWritten => KellyAsWritten(probability, payout, stake, 1.0)
    case Corrected => Kelly(probability, payout, stake, 1.0)
  }

  lemma StakeFractionMonotone(b: real, p1: real, p2: real, fraction: real)
    requires p1 <= p2 && b > 0.0 && fraction >= 0.0
    ensures StakeFraction(b, p1, fraction) <= StakeFraction(b, p2, fraction)
  {
    MulMonotone(p1, p2, b + 1.0);
    assert b * p1 - (1.0 - p1) == (b + 1.0) * p1 - 1.0;
    assert b * p2 - (1.0 - p2) == (b + 1.0) * p2 - 1.0;
    DivMonotone(b * p1 - (1.0 - p1), b * p2 - (1.0 - p2), b);
    MulMonotone(RawKelly(b, p1), RawKelly(b, p2), fraction);
    RoundToMonotone(RawKelly(b, p1) * fraction, RawKelly(b, p2) * fraction, 4);
  }

  /** Raising the win probability never lowers the as-written stake. */
  lemma KellyAsWrittenMonotone(p1: real, p2: real, payout: real, stake: real, fraction: real)
    requires p1 <= p2 && payout > stake && fraction >= 0.0
    ensures KellyAsWritten(p1, payout, stake, fraction) <= KellyAsWritten(p2, payout, stake, fraction)
  {
    StakeFractionMonotone(payout - stake, p1, p2, fraction);
  }

  /** Raising the win probability never lowers the Kelly stake. */
  lemma KellyMonotone(p1: real, p2: real, payout: real, stake: real, fraction: real)
    requires p1 <= p2 && payout > stake > 0.0 && fraction >= 0.0
    ensures Kelly(p1, payout, stake, fraction) <= Kelly(p2, payout, stake, fraction)
  {
    QuotientCompare(payout - stake, stake, 0.0);
    StakeFractionMonotone((payout - stake) / stake, p1, p2, fraction);
  }

  /** With b = (payout - stake) / stake, the Kelly fraction is the expected
      profit per dollar of net profit. */
  lemma KellyIsEdgeOverProfit(probability: real, payout: real, stake: real)
    requires stake > 0.0 && payout != stake
    ensures RawKelly((payout - stake) / stake, probability)
            == (probability * payout - stake) / (payout - stake)
  {
    var b := (payout - stake) / stake;
    DivThenMul(payout - stake, stake);
    assert b * stake == payout - stake;
    var num := b * probability - (1.0 - probability);
    assert num * stake == probability * payout - stake;
    assert num / b == (num * stake) / (b * stake);
  }

  /** The Kelly stake is positive only on a bet whose expected profit
      `probability * payout - stake` is positive. */
  lemma KellyStakesOnlyPositiveEdges(probability: real, payout: real, stake: real, fraction: real)
    requires payout > stake > 0.0 && fraction > 0.0
    ensures Kelly(probability, payout, stake, fraction) > 0.0 ==> probability * payout > stake
    ensures probability * payout <= stake ==> Kelly(probability, payout, stake, fraction) == 0.0
  {
    var kelly := RawKelly((payout - stake) / stake, probability);
    KellyIsEdgeOverProfit(probability, payout, stake);
    QuotientCompare(probability * payout - stake, payout - stake, 0.0);
    if probability * payout <= stake {
      assert kelly <= 0.0;
      MulMonotone(kelly, 0.0, fraction);
      RoundToMonotone(kelly * fraction, 0.0, 4);
      RoundToZero(4);
    }
  }

  /** At stake 100 and payout 300 (the default pair bet), a 30% leg loses
      money on average, yet the as-written formula stakes 29.65% of the
      bankroll on it. */
  lemma KellyAsWrittenStakesLosingBet()
    ensures 0.3 * 300.0 - 100.0 < 0.0
    ensures KellyAsWritten(0.3, 300.0, 100.0, 1.0) == 0.2965
    ensures Kelly(0.3, 300.0, 100.0, 1.0) == 0.0
  {
    assert ScaleUp(0.2965, 4) == 2965.0;
    RoundHalfEvenOfInteger(2965);
    KellyStakesOnlyPositiveEdges(0.3, 300.0, 100.0, 1.0);
  }

  // ---------------------------------------------------------------------
  // Fair (consensus) odds

  /** Subtracted from every bookmaker's implied probability: a fixed
      de-vigging allowance for one-sided props. */
  const FixedBuffer: real := 0.035

  datatype FairOddsError =
    | NoMatchingOffers      // no offer on this player, category, line and side
    | ZeroFairProbability   // the buffered mean probability is exactly 0
    | UnitDecimalOdds       // decimal odds of exactly 1: a division by zero

  predicate Matches(o: Offer, name: string, line: real, category: string, direction: Side)
  {
    o.name == name && o.category == category && o.line == line && o.direction == direction
  }

  /** One bookmaker's implied probability rounded to 2 places, less the buffer. */
  function Buffered(odds: int): (p: real)
    ensures -FixedBuffer <= p <= 1.0 - FixedBuffer
  {
    RoundedProbBounds(odds);
    RoundTo(ImpliedProb(odds), 2) - FixedBuffer
  }

  /** What one offer contributes to the consensus: nothing unless it is on
      this player, category, line and side. */
  function BufferedOffer(o: Offer, name: string, line: real, category: string, direction: Side): Option<real>
  {
    if Matches(o, name, line, category, direction) then Some(Buffered(o.odds)) else None
  }

  function BufferedOffers(offers: seq<Offer>, name: string, line: real, category: string, direction: Side)
    : (opts: seq<Option<real>>)
    ensures |opts| == |offers|
    ensures forall i | 0 <= i < |offers| :: opts[i] == BufferedOffer(offers[i], name, line, category, direction)
  {
    seq(|offers|, i requires 0 <= i < |offers| => BufferedOffer(offers[i], name, line, category, direction))
  }

  /** The buffered probabilities of the matching offers, in table order. */
  function BufferedProbs(offers: seq<Offer>, name: string, line: real, category: string, direction: Side)
    : (probs: seq<real>)
    ensures |probs| <= |offers|
    ensures |probs| == 0 <==> forall i | 0 <= i < |offers| :: !Matches(offers[i], name, line, category, direction)
    ensures forall k | 0 <= k < |probs| :: exists i | 0 <= i < |offers| ::
              Matches(offers[i], name, line, category, direction) && probs[k] == Buffered(offers[i].odds)
    ensures forall i | 0 <= i < |offers| && Matches(offers[i], name, line, category, direction) ::
              Buffered(offers[i].odds) in probs
    ensures forall k | 0 <= k < |probs| :: -FixedBuffer <= probs[k] <= 1.0 - FixedBuffer
  {
    var opts := BufferedOffers(offers, name, line, category, direction);
    var probs := Present(opts, 0);
    forall k | 0 <= k < |probs|
      ensures exists i | 0 <= i < |offers| ::
                Matches(offers[i], name, line, category, direction) && probs[k] == Buffered(offers[i].odds)
    {
      assert probs[k] in probs;
    }
    probs
  }

  /** Exactly one entry per matching offer, in table order: entry a comes
      from offer idx[a], the positions increase, and every matching offer
      has its position among them. */
  lemma BufferedProbsOnePerOffer(offers: seq<Offer>, name: string, line: real, category: string, direction: Side)
    returns (idx: seq<nat>)
    ensures var probs := BufferedProbs(offers, name, line, category, direction);
            && |idx| == |probs|
            && (forall a | 0 <= a < |idx| :: idx[a] < |offers| && Matches(offers[idx[a]], name, line, category, direction)
                                             && probs[a] == Buffered(offers[idx[a]].odds))
            && (forall a, b | 0 <= a < b < |idx| :: idx[a] < idx[b])
            && (forall i | 0 <= i < |offers| && Matches(offers[i], name, line, category, direction) :: i in idx)
  {
    idx := PresentIndices(BufferedOffers(offers, name, line, category, direction), 0);
  }

  lemma RoundedProbBounds(odds: int)
    ensures 0.0 <= RoundTo(ImpliedProb(odds), 2) <= 1.0
  {
    RoundToMonotone(0.0, ImpliedProb(odds), 2);
    RoundToMonotone(ImpliedProb(odds), 1.0, 2);
    RoundToZero(2);
    assert ScaleUp(1.0, 2) == 100.0;
    RoundHalfEvenOfInteger(100);
  }

  function Sum(s: seq<real>): real
  {
    if |s| == 0 then 0.0 else s[0] + Sum(s[1..])
  }

  /** The arithmetic mean lies between the smallest and largest bound. */
  function Mean(s: seq<real>, lo: real, hi: real): (m: real)
    requires |s| > 0
    requires forall i | 0 <= i < |s| :: lo <= s[i] <= hi
    ensures lo <= m <= hi
  {
    SumBounds(s, lo, hi);
    QuotientCompare(Sum(s), |s| as real, lo);
    QuotientCompare(Sum(s), |s| as real, hi);
    Sum(s) / |s| as real
  }

  lemma {:induction false} SumBounds(s: seq<real>, lo: real, hi: real)
    requires forall i | 0 <= i < |s| :: lo <= s[i] <= hi
    ensures lo * |s| as real <= Sum(s) <= hi * |s| as real
  {
    if |s| > 0 {
      SumBounds(s[1..], lo, hi);
    }
  }

  /** Decimal odds to American odds, with the breakpoint at decimal 2.0. */
  function AmericanFromDecimal(decimal: real): (r: Result<int, FairOddsError>)
    ensures r.Failure? <==> decimal == 1.0
    ensures r.Failure? ==> r.error == UnitDecimalOdds
    ensures decimal == 2.0 ==> r == Success(100)
    ensures decimal > 2.0 ==> r.Success? && r.value >= 100
    ensures 1.0 < decimal < 2.0 ==> r.Success? && r.value <= -100
    ensures 0.0 <= decimal < 1.0 ==> r.Success? && r.value >= 100
    ensures decimal < 0.0 ==> r.Success? && 0 <= r.value <= 100
  {
    if decimal == 2.0 then Success(100)
    else if decimal > 2.0 then Success(PositiveAmerican(decimal))
    else if decimal == 1.0 then Failure(UnitDecimalOdds)
    else Success(NegativeAmerican(decimal))
  }

  /** Above the breakpoint: the profit on a 100 stake. */
  function PositiveAmerican(decimal: real): (n: int)
    requires decimal > 2.0
    ensures n >= 100
  {
    RoundHalfEvenMonotone(100.0, (decimal - 1.0) * 100.0);
    RoundHalfEvenOfInteger(100);
    RoundHalfEven((decimal - 1.0) * 100.0)
  }

  /** Below the breakpoint: minus the stake that wins 100. */
  function NegativeAmerican(decimal: real): (n: int)
    requires decimal < 2.0 && decimal != 1.0
    ensures 1.0 < decimal ==> n <= -100
    ensures 0.0 <= decimal < 1.0 ==> n >= 100
    ensures decimal < 0.0 ==> 0 <= n <= 100
  {
    var q := -100.0 / (decimal - 1.0);
    NegativeQuotientBounds(decimal);
    RoundHalfEvenOfInteger(100);
    RoundHalfEvenOfInteger(-100);
    RoundHalfEvenOfInteger(0);
    if 1.0 < decimal then
      RoundHalfEvenMonotone(q, -100.0);
      RoundHalfEven(q)
    else if decimal >= 0.0 then
      RoundHalfEvenMonotone(100.0, q);
      RoundHalfEven(q)
    else
      RoundHalfEvenMonotone(q, 100.0);
      RoundHalfEvenMonotone(0.0, q);
      RoundHalfEven(q)
  }

  lemma NegativeQuotientBounds(decimal: real)
    requires decimal < 2.0 && decimal != 1.0
    ensures 1.0 < decimal ==> -100.0 / (decimal - 1.0) <= -100.0
    ensures 0.0 <= decimal < 1.0 ==> -100.0 / (decimal - 1.0) >= 100.0
    ensures decimal < 0.0 ==> 0.0 <= -100.0 / (decimal - 1.0) <= 100.0
  {
    var q := -100.0 / (decimal - 1.0);
    assert q * (decimal - 1.0) == -100.0;
    if 1.0 < decimal {
      QuotientCompare(-100.0, decimal - 1.0, -100.0);
    } else {
      assert q == 100.0 / (1.0 - decimal);
      QuotientCompare(100.0, 1.0 - decimal, 100.0);
      QuotientCompare(100.0, 1.0 - decimal, 0.0);
    }
  }

  /** `fairProb`: the consensus American odds of the offers on one player,
      category, line and side. */
  function FairOdds(offers: seq<Offer>, name: string, line: real, category: string, direction: Side)
    : (r: Result<int, FairOddsError>)
    ensures r == Failure(NoMatchingOffers)
            <==> forall i | 0 <= i < |offers| :: !Matches(offers[i], name, line, category, direction)
    ensures r == Failure(ZeroFairProbability)
            <==> (exists i | 0 <= i < |offers| :: Matches(offers[i], name, line, category, direction))
                 && FairProbability(offers, name, line, category, direction) == 0.0
    ensures r != Failure(UnitDecimalOdds)
    ensures r.Success? ==>
              var p := FairProbability(offers, name, line, category, direction);
              && (p == 0.5 ==> r.value == 100)
              && (0.0 < p < 0.5 ==> r.value >= 100)
              && (0.5 < p ==> r.value <= -100)
              && (p < 0.0 ==> 0 <= r.value <= 100)
  {
    var probs := BufferedProbs(offers, name, line, category, direction);
    if |probs| == 0 then Failure(NoMatchingOffers)
    else
      var fair := Mean(probs, -FixedBuffer, 1.0 - FixedBuffer);
      if fair == 0.0 then Failure(ZeroFairProbability)
      else
        DecimalOfProbability(fair);
        AmericanFromDecimal(1.0 / fair)
  }

  /** The buffered mean probability; 0 when no offer matches. */
  function FairProbability(offers: seq<Offer>, name: string, line: real, category: string, direction: Side): real
  {
    var probs := BufferedProbs(offers, name, line, category, direction);
    if |probs| == 0 then 0.0 else Mean(probs, -FixedBuffer, 1.0 - FixedBuffer)
  }

  lemma DecimalOfProbability(p: real)
    requires p != 0.0 && p <= 1.0 - FixedBuffer
    ensures 1.0 / p != 1.0
    ensures p == 0.5 ==> 1.0 / p == 2.0
    ensures 0.0 < p < 0.5 ==> 1.0 / p > 2.0
    ensures 0.5 < p ==> 1.0 < 1.0 / p < 2.0
    ensures p < 0.0 ==> 1.0 / p < 0.0
  {
    var d := 1.0 / p;
    assert d * p == 1.0;
    if p > 0.0 {
      QuotientCompare(1.0, p, 2.0);
      QuotientCompare(1.0, p, 1.0);
    } else {
      assert d == -(1.0 / -p);
      QuotientCompare(1.0, -p, 0.0);
    }
  }

  /** Converting a price to its implied probability and back through the
      decimal breakpoint returns the price; -100 and +100 are the same
      price, written +100. */
  lemma AmericanRoundTrip(odds: int)
    requires odds >= 100 || odds <= -100
    ensures AmericanFromDecimal(1.0 / ImpliedProb(odds)) == Success(if odds == -100 then 100 else odds)
  {
    if odds > 0 {
      PositiveRoundTrip(odds);
    } else {
      NegativeRoundTrip(odds);
    }
  }

  lemma PositiveRoundTrip(odds: int)
    requires odds >= 100
    ensures AmericanFromDecimal(1.0 / ImpliedProb(odds)) == Success(odds)
  {
    var o := odds as real;
    var d := 1.0 / ImpliedProb(odds);
    Reciprocal(100.0, o + 100.0);
    assert d == o / 100.0 + 1.0;
    if odds > 100 {
      assert (d - 1.0) * 100.0 == o;
      RoundHalfEvenOfInteger(odds);
      assert PositiveAmerican(d) == odds;
    }
  }

  lemma NegativeRoundTrip(odds: int)
    requires odds <= -100
    ensures AmericanFromDecimal(1.0 / ImpliedProb(odds)) == Success(if odds == -100 then 100 else odds)
  {
    var a := -odds as real;
    var d := 1.0 / ImpliedProb(odds);
    assert ImpliedProb(odds) == a / (a + 100.0);
    Reciprocal(a, a + 100.0);
    assert d == 1.0 + 100.0 / a;
    if odds < -100 {
      Reciprocal(100.0, a);
      assert -100.0 / (d - 1.0) == -a;
      RoundHalfEvenOfInteger(odds);
      assert NegativeAmerican(d) == odds;
    }
  }

  lemma Reciprocal(x: real, y: real)
    requires x != 0.0 && y != 0.0
    ensures 1.0 / (x / y) == y / x
    ensures x / (x / y) == y
  {
  }

  lemma PositiveOddsProb(o: real)
    requires o > 0.0
    ensures 0.0 < 100.0 / (o + 100.0) < 1.0
    ensures 100.0 / (o + 100.0) < 0.5 <==> o > 100.0
    ensures 100.0 / (o + 100.0) == 0.5 <==> o == 100.0
  {
    QuotientCompare(100.0, o + 100.0, 0.0);
    QuotientCompare(100.0, o + 100.0, 1.0);
    QuotientCompare(100.0, o + 100.0, 0.5);
  }

  lemma NegativeOddsProb(a: real)
    requires a >= 0.0
    ensures 0.0 <= a / (a + 100.0) < 1.0
    ensures a / (a + 100.0) == 0.0 <==> a == 0.0
    ensures a / (a + 100.0) >= 0.5 <==> a >= 100.0
    ensures a / (a + 100.0) == 0.5 <==> a == 100.0
  {
    QuotientCompare(a, a + 100.0, 0.0);
    QuotientCompare(a, a + 100.0, 1.0);
    QuotientCompare(a, a + 100.0, 0.5);
  }
}

=== FILE: Props.dfy ===
/** The rows the engine reads: a bookmaker's offer on one player's stat line. */
module Props {

  /** Which side of a line a bet (or a simulated outcome) is on. */
  datatype Side = Over | Under

  /** One row of the bookmaker table: player, bookmaker, category, line,
      side and American odds. */
  datatype Offer = Offer(
    name: string,
    bookmaker: string,
    category: string,
    line: real,
    direction: Side,
    odds: int)
}

=== FILE: RealArith.dfy ===
/** Small facts about ordered-field arithmetic that the solver does not find
    on its own once products or quotients of variables appear. */
module RealArith {

  lemma MulMonotone(x: real, y: real, s: real)
    requires x <= y && s >= 0.0
    ensures x * s <= y * s
  {
    assert (y - x) * s >= 0.0;
  }

  /** The product of two probabilities is a probability. */
  lemma UnitProduct(x: real, y: real)
    requires 0.0 <= x <= 1.0 && 0.0 <= y <= 1.0
    ensures 0.0 <= x * y <= 1.0
  {
    MulMonotone(0.0, x, y);
    MulMonotone(x, 1.0, y);
    assert x * y <= y;
  }

  lemma MulStrict(x: real, y: real, s: real)
    requires x < y && s > 0.0
    ensures x * s < y * s
  {
    assert (y - x) * s > 0.0;
  }

  lemma DivMonotone(x: real, y: real, s: real)
    requires x <= y && s > 0.0
    ensures x / s <= y / s
  {
    assert y / s - x / s == (y - x) / s;
  }

  lemma DivThenMul(x: real, s: real)
    requires s != 0.0
    ensures (x / s) * s == x
  {
  }

  /** Comparing a quotient by a positive number is comparing the dividend. */
  lemma QuotientCompare(x: real, y: real, c: real)
    requires y > 0.0
    ensures x / y >= c <==> x >= c * y
    ensures x / y <= c <==> x <= c * y
    ensures x / y == c <==> x == c * y
  {
    var q := x / y;
    assert q * y == x;
    if q < c { MulStrict(q, c, y); }
    if q > c { MulStrict(c, q, y); }
  }
}

=== FILE: ResidualStd.dfy ===
/** The spread each simulation uses: the standard deviation of a player's
    residuals (actual minus predicted stat), with a fallback policy for
    sparse or degenerate data, floored away from 0 and capped. */
module ResidualStd {
  import opened Wrappers
  import opened Filter

  /** A floating-point value that may be NaN, pandas' marker for missing. */
  datatype Num = Value(v: real) | NaN

  /** Below this many residuals the estimate falls back on the stat's spread. */
  const MinResiduals: nat := 3
  /** The fallback shrinks the stat's historical spread by this factor. */
  const FallbackScale: real := 0.7
  /** Used whenever no usable spread exists. */
  const DefaultStd: real := 5.0
  /** No simulation runs wider than this. */
  const MaxStd: real := 12.0

  /** One historical game: the actual stat (NaN when missing) and the
      prediction made from strictly earlier games only (None when the
      prediction failed). */
  datatype Observation = Observation(actual: Num, prediction: Option<real>)

  /** The pair of per-(player, stat) inputs: the games in date order and the
      sample spread of the stat itself (NaN when undefined). */
  datatype History = History(observations: seq<Observation>, historicalStd: Num)

  predicate Usable(o: Observation)
  {
    o.actual.Value? && o.prediction.Some?
  }

  /** Actual minus predicted, for a game that has both. */
  function ResidualOf(g: Observation): real
    requires Usable(g)
  {
    g.actual.v - g.prediction.value
  }

  /** What one game contributes: its residual, or nothing when the stat is
      missing or the prediction failed. */
  function Residual(g: Observation): (r: Option<real>)
    ensures r.Some? <==> Usable(g)
    ensures r.Some? ==> r.value == ResidualOf(g)
  {
    if Usable(g) then Some(ResidualOf(g)) else None
  }

  function ResidualOpts(games: seq<Observation>): (opts: seq<Option<real>>)
    ensures |opts| == |games|
    ensures forall i | 0 <= i < |games| :: opts[i] == Residual(games[i])
  {
    seq(|games|, i requires 0 <= i < |games| => Residual(games[i]))
  }

  /** The residual of every usable game, in order; a missing stat or a
      failed prediction skips the game rather than failing the estimate. */
  function Residuals(games: seq<Observation>): (r: seq<real>)
    ensures |r| <= |games|
    ensures |r| == |games| <==> forall i | 0 <= i < |games| :: Usable(games[i])
    ensures |r| == 0 <==> forall i | 0 <= i < |games| :: !Usable(games[i])
    ensures forall k | 0 <= k < |r| :: exists i | 0 <= i < |games| :: Usable(games[i]) && r[k] == ResidualOf(games[i])
    ensures forall i | 0 <= i < |games| && Usable(games[i]) :: ResidualOf(games[i]) in r
  {
    ResidualContents(games);
    Present(ResidualOpts(games), 0)
  }

  lemma ResidualContents(games: seq<Observation>)
    ensures var r := Present(ResidualOpts(games), 0);
            && (forall k | 0 <= k < |r| :: exists i | 0 <= i < |games| :: Usable(games[i]) && r[k] == ResidualOf(games[i]))
            && (forall i | 0 <= i < |games| && Usable(games[i]) :: ResidualOf(games[i]) in r)
  {
    var opts := ResidualOpts(games);
    var r := Present(opts, 0);
    forall k | 0 <= k < |r|
      ensures exists i | 0 <= i < |games| :: Usable(games[i]) && r[k] == ResidualOf(games[i])
    {
      assert r[k] in r;
    }
    forall i | 0 <= i < |games| && Usable(games[i])
      ensures ResidualOf(games[i]) in r
    {
      assert opts[i].Some?;
    }
  }

  /** Exactly one residual per usable game, in game order. */
  lemma ResidualsOnePerGame(games: seq<Observation>) returns (idx: seq<nat>)
    ensures var r := Residuals(games);
            && |idx| == |r|
            && (forall a | 0 <= a < |idx| :: idx[a] < |games| && Usable(games[idx[a]])
                                             && r[a] == ResidualOf(games[idx[a]]))
            && (forall a, b | 0 <= a < b < |idx| :: idx[a] < idx[b])
            && (forall i | 0 <= i < |games| && Usable(games[i]) :: i in idx)
  {
    idx := PresentIndices(ResidualOpts(games), 0);
  }

  function Min(x: real, y: real): real
  {
    if x <= y then x else y
  }

  predicate NotNegative(n: Num)
  {
    n.NaN? || n.v >= 0.0
  }

  /** The spread for one player and stat, from its residuals, a population
      standard deviation and the stat's own historical spread. */
  function Estimate(residuals: seq<real>, populationStd: seq<real> -> Num, historicalStd: Num): (s: real)
    ensures s <= MaxStd
    ensures ((|residuals| >= MinResiduals ==> NotNegative(populationStd(residuals)))
             && NotNegative(historicalStd)) ==> s > 0.0
    ensures |residuals| >= MinResiduals && populationStd(residuals).Value? && populationStd(residuals).v > 0.0
            ==> s == Min(populationStd(residuals).v, MaxStd)
    ensures |residuals| < MinResiduals && historicalStd.Value? && historicalStd.v > 0.0
            ==> s == Min(FallbackScale * historicalStd.v, MaxStd)
    ensures |residuals| < MinResiduals && (historicalStd.NaN? || historicalStd.v == 0.0) ==> s == DefaultStd
    ensures |residuals| >= MinResiduals && (populationStd(residuals).NaN? || populationStd(residuals).v == 0.0)
            ==> s == DefaultStd
  {
    var raw :=
      if |residuals| >= MinResiduals then populationStd(residuals)
      else if historicalStd.NaN? then Value(DefaultStd)
      else Value(historicalStd.v * FallbackScale);
    // zero and NaN both count as "no spread"
    var cleaned := if raw.Value? && raw.v != 0.0 then raw.v else DefaultStd;
    Min(cleaned, MaxStd)
  }

  /** player -> stat -> spread, built once per batch and read-only after. */
  type StdTable = map<string, map<string, real>>

  ghost predicate WellFormed(table: StdTable)
  {
    forall p, s | p in table && s in table[p] :: 0.0 < table[p][s] <= MaxStd
  }

  /** The spread of every listed player for every listed stat. */
  function BuildTable(
    players: seq<string>,
    statLines: seq<string>,
    history: (string, string) -> History,
    populationStd: seq<real> -> Num)
    : (t: StdTable)
    ensures forall p | p in players :: p in t
    ensures forall p | p in t :: p in players && forall s | s in statLines :: s in t[p]
    ensures forall p, s | p in t && s in t[p] ::
              s in statLines
              && t[p][s] == Estimate(Residuals(history(p, s).observations), populationStd, history(p, s).historicalStd)
  {
    map p | p in players ::
      map s | s in statLines ::
        Estimate(Residuals(history(p, s).observations), populationStd, history(p, s).historicalStd)
  }

  /** With non-negative spreads in, every table entry is in (0, MaxStd]. */
  lemma BuildTableWellFormed(
    players: seq<string>,
    statLines: seq<string>,
    history: (string, string) -> History,
    populationStd: seq<real> -> Num)
    requires forall r :: NotNegative(populationStd(r))
    requires forall p, s :: NotNegative(history(p, s).historicalStd)
    ensures WellFormed(BuildTable(players, statLines, history, populationStd))
  {
  }

  /** The lookup with a default: a player or stat missing from the table
      gets DefaultStd. */
  function StdFor(table: StdTable, player: string, statLine: string): (s: real)
    ensures WellFormed(table) ==> 0.0 < s <= MaxStd
    ensures player !in table || statLine !in table[player] ==> s == DefaultStd
  {
    if player in table && statLine in table[player] then table[player][statLine] else DefaultStd
  }
}

=== FILE: Rounding.dfy ===
/** Python's `round` on exact reals: round half to even, either to an
    integer (`round(x)`) or to a number of decimal places (`round(x, d)`). */
module Rounding {
  import opened RealArith

  /** 10^d as a real. */
  function Scale(d: nat): (r: real)
    ensures r >= 1.0
  {
    if d == 0 then 1.0 else 10.0 * Scale(d - 1)
  }

  /** The integer nearest to `x`; on a tie, the even one. */
  function RoundHalfEven(x: real): (n: int)
    ensures x - 0.5 <= n as real <= x + 0.5
    ensures (n as real == x - 0.5 || n as real == x + 0.5) ==> n % 2 == 0
  {
    var f := x.Floor;
    var d := x - f as real;
    if d < 0.5 then f
    else if d > 0.5 then f + 1
    else if f % 2 == 0 then f
    else f + 1
  }

  function ScaleUp(x: real, d: nat): real
  {
    x * Scale(d)
  }

  /** `round(x, d)`: the nearest multiple of 10^-d, ties to an even last digit. */
  function RoundTo(x: real, d: nat): real
  {
    RoundHalfEven(ScaleUp(x, d)) as real / Scale(d)
  }

  /** Rounding an integer leaves it unchanged. */
  lemma RoundHalfEvenOfInteger(n: int)
    ensures RoundHalfEven(n as real) == n
  {
  }

  /** Rounding never reverses the order of two numbers. */
  lemma RoundHalfEvenMonotone(x: real, y: real)
    requires x <= y
    ensures RoundHalfEven(x) <= RoundHalfEven(y)
  {
  }

  lemma RoundToMonotone(x: real, y: real, d: nat)
    requires x <= y
    ensures RoundTo(x, d) <= RoundTo(y, d)
  {
    var scale := Scale(d);
    MulMonotone(x, y, scale);
    RoundHalfEvenMonotone(ScaleUp(x, d), ScaleUp(y, d));
    DivMonotone(RoundHalfEven(ScaleUp(x, d)) as real, RoundHalfEven(ScaleUp(y, d)) as real, scale);
  }

  /** Rounding an already rounded number to the same places changes nothing. */
  lemma RoundToIdempotent(x: real, d: nat)
    ensures RoundTo(RoundTo(x, d), d) == RoundTo(x, d)
  {
    var scale := Scale(d);
    var n := RoundHalfEven(ScaleUp(x, d));
    DivThenMul(n as real, scale);
    assert ScaleUp(RoundTo(x, d), d) == n as real;
    RoundHalfEvenOfInteger(n);
  }

  lemma RoundToZero(d: nat)
    ensures RoundTo(0.0, d) == 0.0
  {
    assert ScaleUp(0.0, d) == 0.0;
    RoundHalfEvenOfInteger(0);
  }

  /** A rounded value is positive only if the value itself is. */
  lemma RoundToPositive(x: real, d: nat)
    requires RoundTo(x, d) > 0.0
    ensures x > 0.0
  {
    if x <= 0.0 {
      RoundToMonotone(x, 0.0, d);
      RoundToZero(d);
    }
  }

  function Pow10(d: nat): nat
  {
    if d == 0 then 1 else 10 * Pow10(d - 1)
  }

  /** 10^d is a whole number. */
  lemma {:induction false} ScaleIsInteger(d: nat)
    ensures Scale(d) == Pow10(d) as real
  {
    if d > 0 {
      ScaleIsInteger(d - 1);
    }
  }

  lemma RoundToOne(d: nat)
    ensures RoundTo(1.0, d) == 1.0
  {
    var n := Pow10(d);
    ScaleIsInteger(d);
    assert ScaleUp(1.0, d) == Scale(d);
    RoundHalfEvenOfInteger(n);
    assert RoundHalfEven(ScaleUp(1.0, d)) == n;
  }

  /** A probability rounded to any number of places is still one. */
  lemma RoundedProbability(p: real, d: nat)
    requires 0.0 <= p <= 1.0
    ensures 0.0 <= RoundTo(p, d) <= 1.0
  {
    RoundToMonotone(0.0, p, d);
    RoundToMonotone(p, 1.0, d);
    RoundToZero(d);
    RoundToOne(d);
  }
}

=== FILE: Schedule.dfy ===
/** The day's schedule and opponent resolution: scan the games in order and
    take the first one the player's team plays in. */
module Schedule {
  import opened Wrappers

  datatype Game = Game(home: string, away: string)

  predicate Involves(g: Game, team: string)
  {
    g.home == team || g.away == team
  }

  /** The home side is checked first: a home match yields the away team. */
  function OtherTeam(g: Game, team: string): string
  {
    if g.home == team then g.away else g.home
  }

  /** Index i is the first game of `team` in the schedule. */
  ghost predicate FirstGameAt(games: seq<Game>, team: string, i: int)
  {
    && 0 <= i < |games|
    && Involves(games[i], team)
    && forall j | 0 <= j < i :: !Involves(games[j], team)
  }

  /** The opponent of `team`, or None when no game involves it (the prop
      is then skipped). */
  function Opponent(games: seq<Game>, team: string): (r: Option<string>)
    ensures r.None? <==> forall i | 0 <= i < |games| :: !Involves(games[i], team)
    ensures r.Some? ==> exists i :: FirstGameAt(games, team, i) && r.value == OtherTeam(games[i], team)
  {
    if |games| == 0 then None
    else if games[0].home == team then Some(games[0].away)
    else if games[0].away == team then Some(games[0].home)
    else
      var r := Opponent(games[1..], team);
      assert forall i | 1 <= i < |games| :: games[i] == games[1..][i - 1];
      if r.Some? then
        FirstGameShift(games, team, r.value);
        r
      else r
  }

  lemma FirstGameShift(games: seq<Game>, team: string, opponent: string)
    requires |games| > 0 && !Involves(games[0], team)
    requires exists k :: FirstGameAt(games[1..], team, k) && opponent == OtherTeam(games[1..][k], team)
    ensures exists i :: FirstGameAt(games, team, i) && opponent == OtherTeam(games[i], team)
  {
    var k :| FirstGameAt(games[1..], team, k) && opponent == OtherTeam(games[1..][k], team);
    assert FirstGameAt(games, team, k + 1);
  }

  /** First match wins across a split schedule: a later block of games is
      consulted only when the earlier block has no game for the team. */
  lemma {:induction false} OpponentAppend(a: seq<Game>, b: seq<Game>, team: string)
    ensures Opponent(a + b, team) == if Opponent(a, team).Some? then Opponent(a, team) else Opponent(b, team)
  {
    if |a| == 0 {
      assert a + b == b;
    } else {
      assert (a + b)[1..] == a[1..] + b;
      OpponentAppend(a[1..], b, team);
    }
  }

  /** `iloc[-1]`: the team on the player's latest row; None for no rows. */
  function LatestTeam(teams: seq<string>): (r: Option<string>)
    ensures r.None? <==> |teams| == 0
    ensures r.Some? ==> r.value == teams[|teams| - 1]
  {
    if |teams| == 0 then None else Some(teams[|teams| - 1])
  }
}

=== FILE: Scoring.dfy ===
/** Scoring a pair or trio: simulate every leg on its own draw, take the
    joint probability of every over/under pattern under independence,
    price each pattern's expected value, and keep the first best one. */
module Scoring {
  import opened Wrappers
  import opened Filter
  import opened Props
  import opened Rounding
  import opened RealArith
  import opened OddsMath
  import opened Simulation
  import opened Legs
  import opened Combinations

  /** The side each leg lands on, leg by leg. */
  type Pattern = seq<Side>

  /** The probability that every leg lands on its side, legs independent. */
  function PatternProb(pattern: Pattern, sims: seq<SimulationResult>): real
    requires |pattern| == |sims|
  {
    if |pattern| == 0 then 1.0
    else ProbOf(sims[0], pattern[0]) * PatternProb(pattern[1..], sims[1..])
  }

  /** With calibrated legs every pattern's joint probability is a probability. */
  lemma {:induction false} PatternProbInUnit(pattern: Pattern, sims: seq<SimulationResult>)
    requires |pattern| == |sims| && Calibrated(sims)
    ensures 0.0 <= PatternProb(pattern, sims) <= 1.0
  {
    if |pattern| > 0 {
      assert Calibrated(sims[1..]) by {
        forall i | 0 <= i < |sims[1..]| ensures sims[1..][i] == sims[i + 1] { }
      }
      PatternProbInUnit(pattern[1..], sims[1..]);
      var head, tail := ProbOf(sims[0], pattern[0]), PatternProb(pattern[1..], sims[1..]);
      assert 0.0 <= sims[0].probOver <= 1.0 && sims[0].probOver + sims[0].probUnder == 1.0;
      UnitProduct(head, tail);
    }
  }

  ghost predicate Calibrated(sims: seq<SimulationResult>)
  {
    forall i | 0 <= i < |sims| ::
      0.0 <= sims[i].probOver <= 1.0 && sims[i].probOver + sims[i].probUnder == 1.0
  }

  /** The pair patterns in the order the source's dictionary lists them. */
  const PairPatterns: seq<Pattern> := [[Over, Over], [Under, Under], [Over, Under], [Under, Over]]

  function Prefixed(side: Side, ps: seq<Pattern>): (r: seq<Pattern>)
    ensures |r| == |ps|
    ensures forall i | 0 <= i < |ps| :: r[i] == [side] + ps[i]
  {
    if |ps| == 0 then [] else [[side] + ps[0]] + Prefixed(side, ps[1..])
  }

  /** All 2^k patterns of k legs, over before under, first leg slowest. */
  function AllPatterns(k: nat): (ps: seq<Pattern>)
    ensures forall i | 0 <= i < |ps| :: |ps[i]| == k
  {
    if k == 0 then [[]] else Prefixed(Over, AllPatterns(k - 1)) + Prefixed(Under, AllPatterns(k - 1))
  }

  /** The two-leg patterns in lexicographic order. */
  lemma TwoLegPatterns()
    ensures AllPatterns(2) == [[Over, Over], [Over, Under], [Under, Over], [Under, Under]]
  {
    PrefixedIs(Over, [[]], [[Over]]);
    PrefixedIs(Under, [[]], [[Under]]);
    assert AllPatterns(1) == [[Over], [Under]];
    PrefixedIs(Over, [[Over], [Under]], [[Over, Over], [Over, Under]]);
    PrefixedIs(Under, [[Over], [Under]], [[Under, Over], [Under, Under]]);
  }

  /** The trio patterns are the eight over/under strings in the order the
      source's dictionary lists them. */
  lemma TrioPatternOrder()
    ensures AllPatterns(3) == [
      [Over, Over, Over], [Over, Over, Under], [Over, Under, Over], [Over, Under, Under],
      [Under, Over, Over], [Under, Over, Under], [Under, Under, Over], [Under, Under, Under]]
  {
    TwoLegPatterns();
    var two := [[Over, Over], [Over, Under], [Under, Over], [Under, Under]];
    PrefixedIs(Over, two, [[Over, Over, Over], [Over, Over, Under], [Over, Under, Over], [Over, Under, Under]]);
    PrefixedIs(Under, two, [[Under, Over, Over], [Under, Over, Under], [Under, Under, Over], [Under, Under, Under]]);
  }

  lemma PrefixedIs(side: Side, ps: seq<Pattern>, expected: seq<Pattern>)
    requires |ps| == |expected|
    requires forall i | 0 <= i < |ps| :: expected[i] == [side] + ps[i]
    ensures Prefixed(side, ps) == expected
  {
  }

  function PatternsOf(kind: Kind): (ps: seq<Pattern>)
    ensures |ps| > 0
    ensures forall i | 0 <= i < |ps| :: |ps[i]| == Arity(kind)
  {
    match kind
    case Pair => PairPatterns
    case Trio => TrioPatternOrder(); AllPatterns(3)
  }

  function SumProbs(ps: seq<Pattern>, sims: seq<SimulationResult>): real
    requires forall i | 0 <= i < |ps| :: |ps[i]| == |sims|
  {
    if |ps| == 0 then 0.0 else PatternProb(ps[0], sims) + SumProbs(ps[1..], sims)
  }

  lemma {:induction false} SumProbsAppend(a: seq<Pattern>, b: seq<Pattern>, sims: seq<SimulationResult>)
    requires forall i | 0 <= i < |a| :: |a[i]| == |sims|
    requires forall i | 0 <= i < |b| :: |b[i]| == |sims|
    ensures SumProbs(a + b, sims) == SumProbs(a, sims) + SumProbs(b, sims)
  {
    if |a| == 0 {
      assert a + b == b;
    } else {
      assert (a + b)[1..] == a[1..] + b;
      SumProbsAppend(a[1..], b, sims);
    }
  }

  lemma {:induction false} SumProbsPrefixed(side: Side, ps: seq<Pattern>, sims: seq<SimulationResult>)
    requires |sims| > 0
    requires forall i | 0 <= i < |ps| :: |ps[i]| == |sims| - 1
    ensures SumProbs(Prefixed(side, ps), sims) == ProbOf(sims[0], side) * SumProbs(ps, sims[1..])
  {
    if |ps| > 0 {
      SumProbsPrefixed(side, ps[1..], sims);
      assert Prefixed(side, ps)[1..] == Prefixed(side, ps[1..]);
      assert ([side] + ps[0])[1..] == ps[0];
    }
  }

  /** Over all 2^k patterns the joint probabilities sum to exactly 1. */
  lemma {:induction false} AllPatternsSumToOne(sims: seq<SimulationResult>)
    requires Calibrated(sims)
    ensures SumProbs(AllPatterns(|sims|), sims) == 1.0
  {
    var k := |sims|;
    if k == 0 {
    } else {
      var rest := AllPatterns(k - 1);
      assert Calibrated(sims[1..]) by {
        forall i | 0 <= i < |sims[1..]| ensures sims[1..][i] == sims[i + 1] { }
      }
      AllPatternsSumToOne(sims[1..]);
      SumProbsAppend(Prefixed(Over, rest), Prefixed(Under, rest), sims);
      SumProbsPrefixed(Over, rest, sims);
      SumProbsPrefixed(Under, rest, sims);
    }
  }

  lemma SumProbsCons(x: Pattern, ps: seq<Pattern>, sims: seq<SimulationResult>)
    requires |x| == |sims|
    requires forall i | 0 <= i < |ps| :: |ps[i]| == |sims|
    ensures SumProbs([x] + ps, sims) == PatternProb(x, sims) + SumProbs(ps, sims)
  {
    assert ([x] + ps)[1..] == ps;
  }

  lemma SumProbsTwo(c: Pattern, d: Pattern, sims: seq<SimulationResult>)
    requires |c| == |d| == |sims|
    ensures SumProbs([c, d], sims) == PatternProb(c, sims) + PatternProb(d, sims)
  {
    var empty: seq<Pattern> := [];
    SumProbsCons(d, empty, sims);
    assert [d] + empty == [d];
    SumProbsCons(c, [d], sims);
    assert [c] + [d] == [c, d];
  }

  /** Moving the second of four patterns to the end does not change their total. */
  lemma SumProbsRotate(a: Pattern, b: Pattern, c: Pattern, d: Pattern, sims: seq<SimulationResult>)
    requires |a| == |b| == |c| == |d| == |sims|
    ensures SumProbs([a, b, c, d], sims) == SumProbs([a, c, d, b], sims)
  {
    var pb, pc, pd := PatternProb(b, sims), PatternProb(c, sims), PatternProb(d, sims);
    assert SumProbs([b, c, d], sims) == pb + pc + pd by {
      SumProbsTwo(c, d, sims);
      SumProbsCons(b, [c, d], sims);
      assert [b] + [c, d] == [b, c, d];
    }
    assert SumProbs([c, d, b], sims) == pc + pd + pb by {
      SumProbsTwo(d, b, sims);
      SumProbsCons(c, [d, b], sims);
      assert [c] + [d, b] == [c, d, b];
    }
    SumProbsCons(a, [b, c, d], sims);
    assert [a] + [b, c, d] == [a, b, c, d];
    SumProbsCons(a, [c, d, b], sims);
    assert [a] + [c, d, b] == [a, c, d, b];
  }

  /** Listing the pair patterns in the source's order rather than the
      lexicographic one does not change their total. */
  lemma PairOrderSum(sims: seq<SimulationResult>)
    requires |sims| == 2
    ensures SumProbs(PairPatterns, sims) == SumProbs(AllPatterns(2), sims)
  {
    TwoLegPatterns();
    SumProbsRotate([Over, Over], [Under, Under], [Over, Under], [Under, Over], sims);
  }

  /** The four pair patterns, in the source's order, also sum to 1. */
  lemma PairPatternsSumToOne(sims: seq<SimulationResult>)
    requires |sims| == 2 && Calibrated(sims)
    ensures SumProbs(PairPatterns, sims) == 1.0
  {
    AllPatternsSumToOne(sims);
    PairOrderSum(sims);
  }

  /** The trio patterns' probabilities sum to 1. */
  lemma TrioPatternsSumToOne(sims: seq<SimulationResult>)
    requires |sims| == 3 && Calibrated(sims)
    ensures SumProbs(PatternsOf(Trio), sims) == 1.0
  {
    AllPatternsSumToOne(sims);
  }

  // ---------------------------------------------------------------------
  // First maximum

  /** Index `best` holds the maximum and nothing before it reaches it. */
  ghost predicate IsFirstMax(s: seq<real>, best: int)
  {
    && 0 <= best < |s|
    && (forall j | 0 <= j < |s| :: s[j] <= s[best])
    && (forall j | 0 <= j < best :: s[j] < s[best])
  }

  /** The scan from index i on, `best` the first maximum of s[..i]. */
  function FirstMaxFrom(s: seq<real>, i: nat, best: nat): (r: nat)
    requires best < i <= |s|
    requires forall j | 0 <= j < i :: s[j] <= s[best]
    requires forall j | 0 <= j < best :: s[j] < s[best]
    ensures IsFirstMax(s, r)
    decreases |s| - i
  {
    if i == |s| then best
    else if s[i] > s[best] then FirstMaxFrom(s, i + 1, i)
    else FirstMaxFrom(s, i + 1, best)
  }

  /** `max(evs, key=evs.get)`: a later value replaces the running best only
      when strictly greater, so ties go to the earliest. */
  function FirstMax(s: seq<real>): (r: nat)
    requires |s| > 0
    ensures IsFirstMax(s, r)
  {
    FirstMaxFrom(s, 1, 0)
  }

  /** The first maximum is unique: any index with its two properties is it. */
  lemma FirstMaxUnique(s: seq<real>, a: int, b: int)
    requires IsFirstMax(s, a) && IsFirstMax(s, b)
    ensures a == b
  {
    assert s[a] == s[b];
  }

  // ---------------------------------------------------------------------
  // Scoring one combination

  /** A combination with its winning pattern, that pattern's rounded EV and
      its (unrounded) joint probability. */
  datatype Scored = Scored(combo: Combo, bestPattern: Pattern, bestEv: real, bestProb: real)

  /** One draw per leg, each non-empty, on a combination of the right size. */
  predicate WellShaped(kind: Kind, combo: Combo, draws: seq<seq<real>>)
  {
    && |combo.legs| == Arity(kind)
    && |draws| == |combo.legs|
    && forall i | 0 <= i < |draws| :: |draws[i]| > 0
  }

  function Sims(legs: seq<Leg>, draws: seq<seq<real>>): (sims: seq<SimulationResult>)
    requires |draws| == |legs| && forall i | 0 <= i < |draws| :: |draws[i]| > 0
    ensures |sims| == |legs|
    ensures Calibrated(sims)
    ensures forall i | 0 <= i < |legs| ::
              sims[i] == Simulate(legs[i].prediction, legs[i].stdDev, legs[i].line, draws[i])
  {
    seq(|legs|, i requires 0 <= i < |legs| => Simulate(legs[i].prediction, legs[i].stdDev, legs[i].line, draws[i]))
  }

  /** `round(prob * payout - stake, 2)`: a pattern certain to fail loses
      the stake, and a certain one wins the payout less the stake. */
  function PatternEv(prob: real, payout: real, stake: real): (ev: real)
    ensures prob == 0.0 ==> ev == RoundTo(-stake, 2)
    ensures prob == 1.0 ==> ev == RoundTo(payout - stake, 2)
  {
    RoundTo(prob * payout - stake, 2)
  }

  /** With a non-negative payout, a likelier pattern never has a lower EV. */
  lemma PatternEvMonotone(p1: real, p2: real, payout: real, stake: real)
    requires p1 <= p2 && payout >= 0.0
    ensures PatternEv(p1, payout, stake) <= PatternEv(p2, payout, stake)
  {
    MulMonotone(p1, p2, payout);
    RoundToMonotone(p1 * payout - stake, p2 * payout - stake, 2);
  }

  function PatternEvs(ps: seq<Pattern>, sims: seq<SimulationResult>, payout: real, stake: real): (evs: seq<real>)
    requires forall i | 0 <= i < |ps| :: |ps[i]| == |sims|
    ensures |evs| == |ps|
    ensures forall i | 0 <= i < |ps| :: evs[i] == PatternEv(PatternProb(ps[i], sims), payout, stake)
  {
    seq(|ps|, i requires 0 <= i < |ps| => PatternEv(PatternProb(ps[i], sims), payout, stake))
  }

  /** `process_combination`: None when the combination cannot be scored. */
  function ScoreCombo(kind: Kind, combo: Combo, draws: seq<seq<real>>, payout: real, stake: real)
    : (r: Option<Scored>)
    ensures r.None? <==> !WellShaped(kind, combo, draws)
    ensures r.Some? ==> r.value.combo == combo
  {
    if !WellShaped(kind, combo, draws) then None
    else
      var sims := Sims(combo.legs, draws);
      var ps := PatternsOf(kind);
      var evs := PatternEvs(ps, sims, payout, stake);
      var best := FirstMax(evs);
      Some(Scored(combo, ps[best], evs[best], PatternProb(ps[best], sims)))
  }

  /** The scored pattern is one of the kind's patterns; its probability is
      the joint probability of its sides and its EV the rounded expected
      profit; no pattern has a larger EV, and every pattern with the same EV
      comes no earlier in the dictionary's order. */
  lemma ScoreComboPicksFirstBest(kind: Kind, combo: Combo, draws: seq<seq<real>>, payout: real, stake: real)
    requires WellShaped(kind, combo, draws)
    ensures var r := ScoreCombo(kind, combo, draws, payout, stake).value;
            var sims := Sims(combo.legs, draws);
            var ps := PatternsOf(kind);
            && r.bestPattern in ps
            && r.bestProb == PatternProb(r.bestPattern, sims)
            && r.bestEv == PatternEv(r.bestProb, payout, stake)
            && (forall j | 0 <= j < |ps| ::
                  && PatternEv(PatternProb(ps[j], sims), payout, stake) <= r.bestEv
                  && (PatternEv(PatternProb(ps[j], sims), payout, stake) == r.bestEv
                      ==> r.bestPattern in ps[..j + 1]))
  {
    var sims := Sims(combo.legs, draws);
    var ps := PatternsOf(kind);
    var evs := PatternEvs(ps, sims, payout, stake);
    var best := FirstMax(evs);
    FirstMaxPattern(ps, evs, best);
  }

  lemma FirstMaxPattern(ps: seq<Pattern>, evs: seq<real>, best: nat)
    requires |evs| == |ps| && IsFirstMax(evs, best)
    ensures forall j | 0 <= j < |ps| && evs[j] == evs[best] :: ps[best] in ps[..j + 1]
  {
    forall j | 0 <= j < |ps| && evs[j] == evs[best]
      ensures ps[best] in ps[..j + 1]
    {
      assert best <= j;
      assert ps[..j + 1][best] == ps[best];
    }
  }

  // ---------------------------------------------------------------------
  // The batch

  /** Scoring candidate n: nothing when its draws are missing or its shape
      is wrong, otherwise its best pattern. */
  function ScoreAt(kind: Kind, combos: seq<Combo>, n: nat, draws: nat -> Option<seq<seq<real>>>,
                   payout: real, stake: real)
    : (s: Option<Scored>)
    requires n < |combos|
    ensures s.Some? <==> draws(n).Some? && WellShaped(kind, combos[n], draws(n).value)
    ensures s.Some? ==> s.value.combo == combos[n]
  {
    if draws(n).Some? then ScoreCombo(kind, combos[n], draws(n).value, payout, stake) else None
  }

  /** Entry n of the options is either a failure or a score of combination n. */
  ghost predicate Labelled(opts: seq<Option<Scored>>, cs: seq<Combo>)
  {
    |opts| == |cs| && forall n | 0 <= n < |opts| && opts[n].Some? :: opts[n].value.combo == cs[n]
  }

  /** The scores of all candidates, failures included, in candidate order. */
  function ScoreAll(kind: Kind, combos: seq<Combo>, draws: nat -> Option<seq<seq<real>>>,
                    payout: real, stake: real)
    : (opts: seq<Option<Scored>>)
    ensures Labelled(opts, combos)
    ensures forall n | 0 <= n < |opts| :: opts[n].Some? <==> draws(n).Some? && WellShaped(kind, combos[n], draws(n).value)
  {
    seq(|combos|, n requires 0 <= n < |combos| => ScoreAt(kind, combos, n, draws, payout, stake))
  }

  /** A result row: the combination, its pattern, EV to 2 places,
      probability to 4 places and the Kelly stake. */
  datatype ReportRow = ReportRow(legs: seq<Leg>, pattern: Pattern, ev: real, probability: real, kelly: real)

  /** The row of one scored combination; the Kelly column applies the
      chosen formula to the best pattern's joint probability. */
  function ToRow(pricing: Pricing, s: Scored, payout: real, stake: real): (row: ReportRow)
    requires payout != stake && (pricing == Corrected ==> stake != 0.0)
    ensures row.legs == s.combo.legs && row.pattern == s.bestPattern
    ensures row.kelly >= 0.0
    ensures 0.0 <= s.bestProb <= 1.0 ==> 0.0 <= row.probability <= 1.0
  {
    var row := ReportRow(s.combo.legs, s.bestPattern, RoundTo(s.bestEv, 2), RoundTo(s.bestProb, 4),
                         KellyFor(pricing, s.bestProb, payout, stake));
    assert 0.0 <= s.bestProb <= 1.0 ==> 0.0 <= row.probability <= 1.0 by {
      if 0.0 <= s.bestProb <= 1.0 {
        RoundedProbability(s.bestProb, 4);
      }
    }
    row
  }

  /** The report rounds the best EV to 2 places a second time, which leaves
      it unchanged. */
  lemma ReportedEvIsBestEv(pricing: Pricing, s: Scored, payout: real, stake: real)
    requires payout != stake && (pricing == Corrected ==> stake != 0.0)
    requires s.bestEv == PatternEv(s.bestProb, payout, stake)
    ensures ToRow(pricing, s, payout, stake).ev == s.bestEv
  {
    RoundToIdempotent(s.bestProb * payout - stake, 2);
  }

  /** The combinations of scored results, in order. */
  function CombosOf(out: seq<Scored>): (cs: seq<Combo>)
    ensures |cs| == |out|
    ensures forall n | 0 <= n < |out| :: cs[n] == out[n].combo
  {
    seq(|out|, n requires 0 <= n < |out| => out[n].combo)
  }

  ghost predicate DistinctScored(out: seq<Scored>)
  {
    DistinctKeys(CombosOf(out))
  }

  function ToRows(pricing: Pricing, scored: seq<Scored>, payout: real, stake: real): (rows: seq<ReportRow>)
    requires payout != stake && (pricing == Corrected ==> stake != 0.0)
    ensures |rows| == |scored|
    ensures forall n | 0 <= n < |rows| :: rows[n] == ToRow(pricing, scored[n], payout, stake)
  {
    seq(|scored|, n requires 0 <= n < |scored| => ToRow(pricing, scored[n], payout, stake))
  }

  /** Why a report cannot be produced. */
  datatype ReportError =
    | NoWorkers   // a thread pool of 0 workers: no admissible combination

  /** The report's rows come from successful scores: row r is the row of a
      combination n whose draws succeeded and had the right shape. */
  ghost predicate RowsFromScores(pricing: Pricing, kind: Kind, combos: seq<Combo>, draws: nat -> Option<seq<seq<real>>>,
                                 payout: real, stake: real, rows: seq<ReportRow>)
    requires payout != stake && (pricing == Corrected ==> stake != 0.0)
  {
    forall r | r in rows :: exists n | 0 <= n < |combos| ::
      ScoreAt(kind, combos, n, draws, payout, stake).Some?
      && r == ToRow(pricing, ScoreAt(kind, combos, n, draws, payout, stake).value, payout, stake)
  }

  /** Every combination whose draws succeeded with the right shape has its
      row in the report. */
  ghost predicate EveryScoreReported(pricing: Pricing, kind: Kind, combos: seq<Combo>,
                                     draws: nat -> Option<seq<seq<real>>>, payout: real, stake: real,
                                     rows: seq<ReportRow>)
    requires payout != stake && (pricing == Corrected ==> stake != 0.0)
  {
    forall n | 0 <= n < |combos| && draws(n).Some? && WellShaped(kind, combos[n], draws(n).value) ::
      ToRow(pricing, ScoreAt(kind, combos, n, draws, payout, stake).value, payout, stake) in rows
  }

  /** `prizePicksPairsEV` / `prizePicksTriosEV` after the legs are resolved:
      generate, score, and report. As written, an empty candidate list
      sizes the thread pool at 0 workers, which raises; corrected, it gives
      an empty report. */
  function Report(pricing: Pricing, kind: Kind, legs: seq<Leg>, draws: nat -> Option<seq<seq<real>>>,
                  payout: real, stake: real)
    : (r: Result<seq<ReportRow>, ReportError>)
    requires payout != stake && (pricing == Corrected ==> stake != 0.0)
    ensures r.Failure? <==> pricing == AsWritten && |Generate(kind, legs)| == 0
    ensures r.Success? ==> RowsFromScores(pricing, kind, Generate(kind, legs), draws, payout, stake, r.value)
    ensures r.Success? ==> EveryScoreReported(pricing, kind, Generate(kind, legs), draws, payout, stake, r.value)
    ensures r.Success? ==> forall a, b | 0 <= a < b < |r.value| ::
              Key(Combo(r.value[a].legs)) != Key(Combo(r.value[b].legs))
    ensures r.Success? ==> forall row | row in r.value ::
              |row.legs| == Arity(kind) && DistinctPlayers(row.legs) && row.kelly >= 0.0
  {
    var combos := Generate(kind, legs);
    if pricing == AsWritten && |combos| == 0 then Failure(NoWorkers)
    else
      var opts := ScoreAll(kind, combos, draws, payout, stake);
      var scored := Present(opts, 0);
      PresentDistinct(opts, combos);
      PresentWithin(opts, combos);
      RowsFacts(pricing, kind, combos, scored, payout, stake);
      RowsTracedSound(pricing, kind, combos, draws, payout, stake);
      RowsTracedComplete(pricing, kind, combos, draws, payout, stake);
      Success(ToRows(pricing, scored, payout, stake))
  }

  /** Every row of the kept scores is the row of a successful combination. */
  lemma RowsTracedSound(pricing: Pricing, kind: Kind, combos: seq<Combo>, draws: nat -> Option<seq<seq<real>>>,
                        payout: real, stake: real)
    requires payout != stake && (pricing == Corrected ==> stake != 0.0)
    ensures RowsFromScores(pricing, kind, combos, draws, payout, stake,
                           ToRows(pricing, Present(ScoreAll(kind, combos, draws, payout, stake), 0), payout, stake))
  {
    var opts := ScoreAll(kind, combos, draws, payout, stake);
    var scored := Present(opts, 0);
    var rows := ToRows(pricing, scored, payout, stake);
    forall r | r in rows
      ensures exists n | 0 <= n < |combos| ::
                ScoreAt(kind, combos, n, draws, payout, stake).Some?
                && r == ToRow(pricing, ScoreAt(kind, combos, n, draws, payout, stake).value, payout, stake)
    {
      var a :| 0 <= a < |rows| && rows[a] == r;
      assert scored[a] in scored;
      var n :| 0 <= n < |opts| && opts[n] == Some(scored[a]);
      assert ScoreAt(kind, combos, n, draws, payout, stake) == opts[n];
    }
  }

  /** Every successful combination's row is among the rows of the kept scores. */
  lemma RowsTracedComplete(pricing: Pricing, kind: Kind, combos: seq<Combo>, draws: nat -> Option<seq<seq<real>>>,
                           payout: real, stake: real)
    requires payout != stake && (pricing == Corrected ==> stake != 0.0)
    ensures EveryScoreReported(pricing, kind, combos, draws, payout, stake,
                               ToRows(pricing, Present(ScoreAll(kind, combos, draws, payout, stake), 0), payout, stake))
  {
    var opts := ScoreAll(kind, combos, draws, payout, stake);
    var scored := Present(opts, 0);
    var rows := ToRows(pricing, scored, payout, stake);
    forall n | 0 <= n < |combos| && draws(n).Some? && WellShaped(kind, combos[n], draws(n).value)
      ensures ToRow(pricing, ScoreAt(kind, combos, n, draws, payout, stake).value, payout, stake) in rows
    {
      assert opts[n] == ScoreAt(kind, combos, n, draws, payout, stake);
      var a :| 0 <= a < |scored| && scored[a] == opts[n].value;
      assert rows[a] == ToRow(pricing, scored[a], payout, stake);
    }
  }

  lemma RowsFacts(pricing: Pricing, kind: Kind, combos: seq<Combo>, scored: seq<Scored>, payout: real, stake: real)
    requires payout != stake && (pricing == Corrected ==> stake != 0.0)
    requires DistinctScored(scored)
    requires forall s | s in scored :: s.combo in combos
    requires forall c | c in combos :: |c.legs| == Arity(kind) && DistinctPlayers(c.legs)
    ensures var rows := ToRows(pricing, scored, payout, stake);
            && (forall a, b | 0 <= a < b < |rows| :: Key(Combo(rows[a].legs)) != Key(Combo(rows[b].legs)))
            && (forall r | r in rows :: |r.legs| == Arity(kind) && DistinctPlayers(r.legs) && r.kelly >= 0.0)
  {
    var rows := ToRows(pricing, scored, payout, stake);
    forall a, b | 0 <= a < b < |rows|
      ensures Key(Combo(rows[a].legs)) != Key(Combo(rows[b].legs))
    {
      assert Combo(rows[a].legs) == scored[a].combo;
      assert Combo(rows[b].legs) == scored[b].combo;
    }
    forall r | r in rows
      ensures |r.legs| == Arity(kind) && DistinctPlayers(r.legs) && r.kelly >= 0.0
    {
      var n :| 0 <= n < |rows| && rows[n] == r;
      assert scored[n] in scored;
    }
  }

  /** Dropping failures keeps the canonical keys of the survivors distinct. */
  lemma PresentDistinct(opts: seq<Option<Scored>>, cs: seq<Combo>)
    requires Labelled(opts, cs) && DistinctKeys(cs)
    ensures DistinctScored(Present(opts, 0))
  {
    var out := Present(opts, 0);
    var idx := PresentIndices(opts, 0);
    var kept := CombosOf(out);
    forall a, b | 0 <= a < b < |kept|
      ensures Key(kept[a]) != Key(kept[b])
    {
      assert kept[a] == cs[idx[a]];
      assert kept[b] == cs[idx[b]];
    }
  }

  /** Every surviving score is of one of the candidates. */
  lemma PresentWithin(opts: seq<Option<Scored>>, cs: seq<Combo>)
    requires Labelled(opts, cs)
    ensures forall r | r in Present(opts, 0) :: r.combo in cs
  {
    forall r | r in Present(opts, 0)
      ensures r.combo in cs
    {
      var n :| 0 <= n < |opts| && opts[n] == Some(r);
    }
  }

  /** As written: two legs on one team admit no pair, so the pool is sized
      at 0 workers and the pair report raises instead of coming back empty. */
  lemma EmptyBoardRaises(draws: nat -> Option<seq<seq<real>>>)
    ensures var a := Leg("A", "points", "PTS", 10.5, 12.0, "HOME", "AWAY", 5.0);
            var b := Leg("B", "points", "PTS", 8.5, 9.0, "HOME", "AWAY", 5.0);
            && Generate(Pair, [a, b]) == []
            && Report(AsWritten, Pair, [a, b], draws, 300.0, 100.0) == Failure(NoWorkers)
  {
    var a := Leg("A", "points", "PTS", 10.5, 12.0, "HOME", "AWAY", 5.0);
    var b := Leg("B", "points", "PTS", 8.5, 9.0, "HOME", "AWAY", 5.0);
    TwoLegsSameTeam(a, b);
  }

  /** Corrected: the report never fails, and no admissible combination
      gives an empty report. */
  lemma CorrectedReportNeverFails(kind: Kind, legs: seq<Leg>, draws: nat -> Option<seq<seq<real>>>,
                                  payout: real, stake: real)
    requires payout != stake && stake != 0.0
    ensures Report(Corrected, kind, legs, draws, payout, stake).Success?
    ensures |Generate(kind, legs)| == 0 ==> Report(Corrected, kind, legs, draws, payout, stake) == Success([])
  {
  }
}

=== FILE: Simulation.dfy ===
/** The Monte Carlo step once the random draw is fixed: the draw is an
    input, and the probabilities are frequencies over it. */
module Simulation {
  import opened Props
  import opened RealArith

  /** How many simulated outcomes land strictly above the line. */
  function CountAbove(samples: seq<real>, line: real): (c: nat)
    ensures c <= |samples|
    ensures c == |samples| <==> forall i | 0 <= i < |samples| :: samples[i] > line
    ensures c == 0 <==> forall i | 0 <= i < |samples| :: samples[i] <= line
  {
    if |samples| == 0 then 0
    else
      assert forall i | 1 <= i < |samples| :: samples[i] == samples[1..][i - 1];
      (if samples[0] > line then 1 else 0) + CountAbove(samples[1..], line)
  }

  /** Counting splits over a concatenation, so the order of the draw is irrelevant. */
  lemma {:induction false} CountAboveAppend(a: seq<real>, b: seq<real>, line: real)
    ensures CountAbove(a + b, line) == CountAbove(a, line) + CountAbove(b, line)
  {
    if |a| > 0 {
      assert (a + b)[1..] == a[1..] + b;
      CountAboveAppend(a[1..], b, line);
    } else {
      assert a + b == b;
    }
  }

  /** A higher line never has more outcomes above it. */
  lemma {:induction false} CountAboveAntitone(samples: seq<real>, low: real, high: real)
    requires low <= high
    ensures CountAbove(samples, high) <= CountAbove(samples, low)
  {
    if |samples| > 0 {
      CountAboveAntitone(samples[1..], low, high);
    }
  }

  /** What one simulation reports (the percentile interval is not modelled). */
  datatype SimulationResult = SimulationResult(
    meanPrediction: real,
    stdUsed: real,
    probOver: real,
    probUnder: real)

  /** `monte_carlo_prop_simulation` given its draw of n outcomes, n > 0. */
  function Simulate(prediction: real, stdDev: real, line: real, samples: seq<real>): (r: SimulationResult)
    requires |samples| > 0
    ensures 0.0 <= r.probOver <= 1.0 && 0.0 <= r.probUnder <= 1.0
    ensures r.probOver + r.probUnder == 1.0
    ensures r.probOver == Frequency(CountAbove(samples, line), |samples|)
    ensures r.probOver == 1.0 <==> forall i | 0 <= i < |samples| :: samples[i] > line
    ensures r.probOver == 0.0 <==> forall i | 0 <= i < |samples| :: samples[i] <= line
    ensures r.meanPrediction == prediction && r.stdUsed == stdDev
  {
    var over := Frequency(CountAbove(samples, line), |samples|);
    SimulationResult(prediction, stdDev, over, 1.0 - over)
  }

  /** The share c / n of n outcomes. */
  function Frequency(c: nat, n: nat): (f: real)
    requires 0 < n && c <= n
    ensures 0.0 <= f <= 1.0
    ensures f * n as real == c as real
    ensures f == 1.0 <==> c == n
    ensures f == 0.0 <==> c == 0
  {
    QuotientCompare(c as real, n as real, 0.0);
    QuotientCompare(c as real, n as real, 1.0);
    DivThenMul(c as real, n as real);
    c as real / n as real
  }

  /** The simulated probability of one side. */
  function ProbOf(r: SimulationResult, side: Side): real
  {
    match side
    case Over => r.probOver
    case Under => r.probUnder
  }

  /** On the same draw, raising the line never makes the over likelier. */
  lemma SimulateLineMonotone(prediction: real, stdDev: real, low: real, high: real, samples: seq<real>)
    requires |samples| > 0 && low <= high
    ensures Simulate(prediction, stdDev, high, samples).probOver <= Simulate(prediction, stdDev, low, samples).probOver
  {
    CountAboveAntitone(samples, low, high);
    DivMonotone(CountAbove(samples, high) as real, CountAbove(samples, low) as real, |samples| as real);
  }
}

=== FILE: SingleBet.dfy ===
/** Single props: each bookmaker offer of one category is resolved like a
    leg, simulated on its own draw and priced at its own American odds. */
module SingleBet {
  import opened Wrappers
  import opened Filter
  import opened Props
  import opened Rounding
  import opened RealArith
  import opened OddsMath
  import opened Simulation
  import opened Schedule
  import opened ResidualStd
  import opened Legs

  /** The stake every single bet is priced at. */
  const Stake: real := 100.0

  /** The profit a winning bet of `stake` returns at American odds `odds`;
      None at odds 0, where the source divides by zero. */
  function Profit(odds: int, stake: real): (r: Option<real>)
    requires stake > 0.0
    ensures r.None? <==> odds == 0
    ensures r.Some? ==> r.value > 0.0
    ensures odds == 100 || odds == -100 ==> r == Some(stake)
  {
    if odds > 0 then Some(odds as real / 100.0 * stake)
    else if odds == 0 then None
    else Some(100.0 / Abs(odds) as real * stake)
  }

  /** The expected profit of a bet won with `probability`. */
  function Ev(probability: real, profit: real, stake: real): real
  {
    probability * profit - (1.0 - probability) * stake
  }

  /** The implied probability is the break-even one: at that probability the
      expected payout is exactly the stake. */
  lemma BreakEven(odds: int, stake: real)
    requires odds != 0 && stake > 0.0
    ensures ImpliedProb(odds) * (stake + Profit(odds, stake).value) == stake
  {
    var profit := Profit(odds, stake).value;
    if odds > 0 {
      var o := odds as real;
      assert stake + profit == stake * (o + 100.0) / 100.0;
      assert ImpliedProb(odds) == 100.0 / (o + 100.0);
      DivThenMul(100.0, o + 100.0);
    } else {
      var a := Abs(odds) as real;
      assert profit == 100.0 / a * stake;
      DivThenMul(100.0, a);
      assert stake + profit == stake * (a + 100.0) / a;
      assert ImpliedProb(odds) == a / (a + 100.0);
      DivThenMul(a, a + 100.0);
    }
  }

  /** The expected profit is the payout times the edge over the break-even
      probability. */
  lemma EvIsEdge(probability: real, odds: int, stake: real)
    requires odds != 0 && stake > 0.0
    ensures var profit := Profit(odds, stake).value;
            Ev(probability, profit, stake) == (stake + profit) * (probability - ImpliedProb(odds))
  {
    BreakEven(odds, stake);
  }

  /** A bet has positive expected profit exactly when the probability beats
      the implied one. */
  lemma EvPositiveIff(probability: real, odds: int, stake: real)
    requires odds != 0 && stake > 0.0
    ensures Ev(probability, Profit(odds, stake).value, stake) > 0.0 <==> probability > ImpliedProb(odds)
    ensures probability * (stake + Profit(odds, stake).value) > stake <==> probability > ImpliedProb(odds)
  {
    var payout := stake + Profit(odds, stake).value;
    var edge := probability - ImpliedProb(odds);
    EvIsEdge(probability, odds, stake);
    BreakEven(odds, stake);
    assert probability * payout - stake == payout * edge;
    if edge > 0.0 {
      MulStrict(0.0, edge, payout);
    } else {
      MulMonotone(edge, 0.0, payout);
    }
  }

  // ---------------------------------------------------------------------
  // Pricing one offer

  /** The source prices every offer from the over's probability and with
      the as-written Kelly formula; the corrected pricing uses the
      probability of the offer's own side and the Kelly stake on net odds. */
  function BetProbability(pricing: Pricing, sim: SimulationResult, direction: Side): real
  {
    match pricing
    case AsWritten => sim.probOver
    case Corrected => ProbOf(sim, direction)
  }

  /** One output row: the offer, the resolved context, the consensus odds
      (None when they cannot be computed), the prediction rounded to an
      integer, the over's probability to 3 places, the EV to 2 places and
      the Kelly stake. */
  datatype BetRow = BetRow(
    name: string,
    team: string,
    opponent: string,
    bookmaker: string,
    category: string,
    line: real,
    direction: Side,
    odds: int,
    fairOdds: Option<int>,
    prediction: int,
    simProb: real,
    ev: real,
    kelly: real)

  /** `fairProb`, with its errors turned into a missing value. */
  function FairOddsOrNone(offers: seq<Offer>, o: Offer): (r: Option<int>)
    ensures r.None? <==> FairOdds(offers, o.name, o.line, o.category, o.direction).Failure?
    ensures r.Some? ==> FairOdds(offers, o.name, o.line, o.category, o.direction) == Success(r.value)
  {
    match FairOdds(offers, o.name, o.line, o.category, o.direction)
    case Success(v) => Some(v)
    case Failure(_) => None
  }

  /** The row of an offer whose player resolved to `leg` and whose
      simulation gave `sim`. */
  function BuildRow(pricing: Pricing, offers: seq<Offer>, o: Offer, leg: Leg, sim: SimulationResult): (row: BetRow)
    requires o.odds != 0
    ensures row.kelly >= 0.0
    ensures row.fairOdds.None? <==> FairOdds(offers, o.name, o.line, o.category, o.direction).Failure?
  {
    var profit := Profit(o.odds, Stake).value;
    var p := BetProbability(pricing, sim, o.direction);
    BetRow(o.name, leg.team, leg.opponent, o.bookmaker, o.category, o.line, o.direction, o.odds,
           FairOddsOrNone(offers, o), RoundHalfEven(leg.prediction), RoundTo(sim.probOver, 3),
           RoundTo(Ev(p, profit, Stake), 2), KellyFor(pricing, p, Stake + profit, Stake))
  }

  function BoardRowOf(o: Offer): BoardRow
  {
    BoardRow(o.name, o.category, o.line)
  }

  /** One iteration of `single_bet`: None when the row is skipped. */
  function PriceOffer(pricing: Pricing, offers: seq<Offer>, o: Offer, statLine: string, src: Sources,
                      games: seq<Game>, stds: StdTable, draw: seq<real>)
    : (r: Option<BetRow>)
    requires |draw| > 0
    ensures r.None? <==> ResolveLeg(BoardRowOf(o), statLine, src, games, stds).None? || o.odds == 0
    ensures r.Some? ==>
              && r.value.name == o.name && r.value.bookmaker == o.bookmaker && r.value.category == o.category
              && r.value.line == o.line && r.value.direction == o.direction && r.value.odds == o.odds
              && o.odds != 0
              && Opponent(games, r.value.team) == Some(r.value.opponent)
              && r.value.kelly >= 0.0
              && 0.0 <= r.value.simProb <= 1.0
  {
    var leg := ResolveLeg(BoardRowOf(o), statLine, src, games, stds);
    if leg.None? || o.odds == 0 then None
    else
      var sim := Simulate(leg.value.prediction, leg.value.stdDev, o.line, draw);
      RoundedProbability(sim.probOver, 3);
      Some(BuildRow(pricing, offers, o, leg.value, sim))
  }

  /** What offer n contributes to the report of `category`: nothing when it
      is of another category or cannot be priced; draws[n] is its draw. */
  function OfferRow(pricing: Pricing, offers: seq<Offer>, n: nat, category: string, statLine: string,
                    src: Sources, games: seq<Game>, stds: StdTable, draws: seq<seq<real>>)
    : Option<BetRow>
    requires |draws| == |offers| && n < |offers| && |draws[n]| > 0
  {
    if offers[n].category != category then None
    else PriceOffer(pricing, offers, offers[n], statLine, src, games, stds, draws[n])
  }

  function OfferRows(pricing: Pricing, offers: seq<Offer>, category: string, statLine: string, src: Sources,
                     games: seq<Game>, stds: StdTable, draws: seq<seq<real>>)
    : (opts: seq<Option<BetRow>>)
    requires |draws| == |offers|
    requires forall n | 0 <= n < |draws| :: |draws[n]| > 0
    ensures |opts| == |offers|
    ensures forall n | 0 <= n < |offers| :: opts[n] == OfferRow(pricing, offers, n, category, statLine, src, games, stds, draws)
  {
    seq(|offers|, n requires 0 <= n < |offers| => OfferRow(pricing, offers, n, category, statLine, src, games, stds, draws))
  }

  /** An offer of the category whose player resolves and whose odds are not 0. */
  ghost predicate Priceable(o: Offer, category: string, statLine: string, src: Sources, games: seq<Game>, stds: StdTable)
  {
    o.category == category && o.odds != 0 && ResolveLeg(BoardRowOf(o), statLine, src, games, stds).Some?
  }

  /** Every row is the priced row of an offer of the category. */
  ghost predicate RowsFromOffers(pricing: Pricing, offers: seq<Offer>, category: string, statLine: string,
                                 src: Sources, games: seq<Game>, stds: StdTable, draws: seq<seq<real>>,
                                 rows: seq<BetRow>)
    requires |draws| == |offers|
    requires forall n | 0 <= n < |draws| :: |draws[n]| > 0
  {
    forall r | r in rows :: exists n | 0 <= n < |offers| ::
      offers[n].category == category
      && PriceOffer(pricing, offers, offers[n], statLine, src, games, stds, draws[n]) == Some(r)
  }

  /** `single_bet`: the rows of the offers of `category`, in table order.
      Every row is the priced row of an offer of the category, and every
      priceable offer of the category has its row, whatever happens to the
      others. */
  function SingleBet(pricing: Pricing, offers: seq<Offer>, category: string, statLine: string, src: Sources,
                     games: seq<Game>, stds: StdTable, draws: seq<seq<real>>)
    : (rows: seq<BetRow>)
    requires |draws| == |offers|
    requires forall n | 0 <= n < |draws| :: |draws[n]| > 0
    ensures |rows| <= |offers|
    ensures RowsFromOffers(pricing, offers, category, statLine, src, games, stds, draws, rows)
    ensures forall n | 0 <= n < |offers| && Priceable(offers[n], category, statLine, src, games, stds) ::
              PriceOffer(pricing, offers, offers[n], statLine, src, games, stds, draws[n]).value in rows
    ensures (forall n | 0 <= n < |offers| :: offers[n].category != category) ==> rows == []
    ensures forall r | r in rows ::
              && r.category == category && r.odds != 0 && r.kelly >= 0.0
              && Opponent(games, r.team) == Some(r.opponent)
              && (exists o | o in offers ::
                    && o.category == category && o.name == r.name && o.bookmaker == r.bookmaker
                    && o.line == r.line && o.direction == r.direction && o.odds == r.odds)
  {
    var rows := Present(OfferRows(pricing, offers, category, statLine, src, games, stds, draws), 0);
    SingleBetSound(pricing, offers, category, statLine, src, games, stds, draws);
    SingleBetComplete(pricing, offers, category, statLine, src, games, stds, draws);
    OfferRowFacts(pricing, offers, category, statLine, src, games, stds, draws, rows);
    rows
  }

  lemma SingleBetSound(pricing: Pricing, offers: seq<Offer>, category: string, statLine: string, src: Sources,
                       games: seq<Game>, stds: StdTable, draws: seq<seq<real>>)
    requires |draws| == |offers|
    requires forall n | 0 <= n < |draws| :: |draws[n]| > 0
    ensures RowsFromOffers(pricing, offers, category, statLine, src, games, stds, draws,
                           Present(OfferRows(pricing, offers, category, statLine, src, games, stds, draws), 0))
  {
    var opts := OfferRows(pricing, offers, category, statLine, src, games, stds, draws);
    forall r | r in Present(opts, 0)
      ensures exists n | 0 <= n < |offers| ::
                offers[n].category == category
                && PriceOffer(pricing, offers, offers[n], statLine, src, games, stds, draws[n]) == Some(r)
    {
      var n :| 0 <= n < |opts| && opts[n] == Some(r);
      OfferRowSome(pricing, offers, n, category, statLine, src, games, stds, draws, r);
    }
  }

  /** An offer contributes a row only when it is of the category and priced. */
  lemma OfferRowSome(pricing: Pricing, offers: seq<Offer>, n: nat, category: string, statLine: string,
                     src: Sources, games: seq<Game>, stds: StdTable, draws: seq<seq<real>>, r: BetRow)
    requires |draws| == |offers| && n < |offers| && |draws[n]| > 0
    requires OfferRow(pricing, offers, n, category, statLine, src, games, stds, draws) == Some(r)
    ensures offers[n].category == category
    ensures PriceOffer(pricing, offers, offers[n], statLine, src, games, stds, draws[n]) == Some(r)
  {
  }

  /** What the priced rows of offers of the category carry. */
  lemma OfferRowFacts(pricing: Pricing, offers: seq<Offer>, category: string, statLine: string, src: Sources,
                      games: seq<Game>, stds: StdTable, draws: seq<seq<real>>, rows: seq<BetRow>)
    requires |draws| == |offers|
    requires forall n | 0 <= n < |draws| :: |draws[n]| > 0
    requires RowsFromOffers(pricing, offers, category, statLine, src, games, stds, draws, rows)
    ensures forall r | r in rows ::
              && r.category == category && r.odds != 0 && r.kelly >= 0.0
              && Opponent(games, r.team) == Some(r.opponent)
              && (exists o | o in offers ::
                    && o.category == category && o.name == r.name && o.bookmaker == r.bookmaker
                    && o.line == r.line && o.direction == r.direction && o.odds == r.odds)
  {
    forall r | r in rows
      ensures && r.category == category && r.odds != 0 && r.kelly >= 0.0
              && Opponent(games, r.team) == Some(r.opponent)
              && (exists o | o in offers ::
                    && o.category == category && o.name == r.name && o.bookmaker == r.bookmaker
                    && o.line == r.line && o.direction == r.direction && o.odds == r.odds)
    {
      var n :| 0 <= n < |offers| && offers[n].category == category
               && PriceOffer(pricing, offers, offers[n], statLine, src, games, stds, draws[n]) == Some(r);
      assert offers[n] in offers;
    }
  }

  lemma SingleBetComplete(pricing: Pricing, offers: seq<Offer>, category: string, statLine: string, src: Sources,
                          games: seq<Game>, stds: StdTable, draws: seq<seq<real>>)
    requires |draws| == |offers|
    requires forall n | 0 <= n < |draws| :: |draws[n]| > 0
    ensures var rows := Present(OfferRows(pricing, offers, category, statLine, src, games, stds, draws), 0);
            forall n | 0 <= n < |offers| && Priceable(offers[n], category, statLine, src, games, stds) ::
              PriceOffer(pricing, offers, offers[n], statLine, src, games, stds, draws[n]).value in rows
  {
    var opts := OfferRows(pricing, offers, category, statLine, src, games, stds, draws);
    forall n | 0 <= n < |offers| && Priceable(offers[n], category, statLine, src, games, stds)
      ensures PriceOffer(pricing, offers, offers[n], statLine, src, games, stds, draws[n]).value in Present(opts, 0)
    {
      assert opts[n].Some?;
    }
  }

  /** Exactly one row per priceable offer of the category, in table order:
      row a is the row of offer idx[a], the positions increase, and every
      priceable offer of the category has its position among them. */
  lemma SingleBetOnePerOffer(pricing: Pricing, offers: seq<Offer>, category: string, statLine: string,
                             src: Sources, games: seq<Game>, stds: StdTable, draws: seq<seq<real>>)
    returns (idx: seq<nat>)
    requires |draws| == |offers|
    requires forall n | 0 <= n < |draws| :: |draws[n]| > 0
    ensures var rows := SingleBet(pricing, offers, category, statLine, src, games, stds, draws);
            && |idx| == |rows|
            && (forall a | 0 <= a < |idx| ::
                  && idx[a] < |offers| && Priceable(offers[idx[a]], category, statLine, src, games, stds)
                  && PriceOffer(pricing, offers, offers[idx[a]], statLine, src, games, stds, draws[idx[a]]) == Some(rows[a]))
            && (forall a, b | 0 <= a < b < |idx| :: idx[a] < idx[b])
            && (forall n | 0 <= n < |offers| && Priceable(offers[n], category, statLine, src, games, stds) :: n in idx)
  {
    var opts := OfferRows(pricing, offers, category, statLine, src, games, stds, draws);
    idx := PresentIndices(opts, 0);
    forall a | 0 <= a < |idx|
      ensures Priceable(offers[idx[a]], category, statLine, src, games, stds)
      ensures PriceOffer(pricing, offers, offers[idx[a]], statLine, src, games, stds, draws[idx[a]])
              == Some(Present(opts, 0)[a])
    {
      assert opts[idx[a]] == OfferRow(pricing, offers, idx[a], category, statLine, src, games, stds, draws);
    }
    forall n | 0 <= n < |offers| && Priceable(offers[n], category, statLine, src, games, stds)
      ensures n in idx
    {
      assert opts[n].Some?;
    }
  }

  // ---------------------------------------------------------------------
  // What the pricing means

  /** Corrected pricing: a row shows a positive EV only when the simulated
      probability of its own side beats the price's implied probability, and
      a side that does not beat it gets a non-positive EV and no stake. */
  lemma CorrectedRowMatchesSide(offers: seq<Offer>, o: Offer, leg: Leg, sim: SimulationResult)
    requires o.odds != 0
    ensures var row := BuildRow(Corrected, offers, o, leg, sim);
            && (row.ev > 0.0 ==> ProbOf(sim, o.direction) > ImpliedProb(o.odds))
            && (ProbOf(sim, o.direction) <= ImpliedProb(o.odds) ==> row.ev <= 0.0 && row.kelly == 0.0)
  {
    CorrectedPrice(ProbOf(sim, o.direction), o.odds);
  }

  /** Under either pricing, a row's EV is positive only when the probability
      it is priced from beats the price's implied probability, and is never
      positive otherwise: the EV's sign survives the rounding to cents. */
  lemma RowEvFollowsEdge(pricing: Pricing, offers: seq<Offer>, o: Offer, leg: Leg, sim: SimulationResult)
    requires o.odds != 0
    ensures var row := BuildRow(pricing, offers, o, leg, sim);
            var p := BetProbability(pricing, sim, o.direction);
            && (row.ev > 0.0 ==> p > ImpliedProb(o.odds))
            && (p <= ImpliedProb(o.odds) ==> row.ev <= 0.0)
  {
    CorrectedPrice(BetProbability(pricing, sim, o.direction), o.odds);
  }

  /** The same statement about a probability and a price alone. */
  lemma CorrectedPrice(p: real, odds: int)
    requires odds != 0
    ensures var profit := Profit(odds, Stake).value;
            var ev := RoundTo(Ev(p, profit, Stake), 2);
            && (ev > 0.0 ==> p > ImpliedProb(odds))
            && (p <= ImpliedProb(odds) ==> ev <= 0.0 && Kelly(p, Stake + profit, Stake, 1.0) == 0.0)
  {
    var profit := Profit(odds, Stake).value;
    var ev := Ev(p, profit, Stake);
    EvPositiveIff(p, odds, Stake);
    if RoundTo(ev, 2) > 0.0 {
      RoundToPositive(ev, 2);
    }
    if p <= ImpliedProb(odds) {
      RoundToMonotone(ev, 0.0, 2);
      RoundToZero(2);
      KellyStakesOnlyPositiveEdges(p, Stake + profit, Stake, 1.0);
    }
  }

  /** As written, a row's EV and stake do not depend on its side: the over
      and the under of the same offer are priced identically. */
  lemma AsWrittenIgnoresSide(offers: seq<Offer>, o: Offer, leg: Leg, sim: SimulationResult)
    requires o.odds != 0
    ensures var over := BuildRow(AsWritten, offers, o.(direction := Over), leg, sim);
            var under := BuildRow(AsWritten, offers, o.(direction := Under), leg, sim);
            over.ev == under.ev && over.kelly == under.kelly
  {
  }

  /** An under at +100 on a draw that lands entirely over the line: as
      written the row shows EV +100, although the under never wins in the
      simulation; the corrected row shows -100. */
  lemma UnderPricedFromOver()
    ensures var o := Offer("player", "book", "points", 10.5, Under, 100);
            var leg := Leg("player", "points", "PTS", 10.5, 20.0, "HOME", "AWAY", 5.0);
            var sim := Simulate(20.0, 5.0, 10.5, [12.0]);
            && ProbOf(sim, Under) == 0.0 && ImpliedProb(100) == 0.5
            && BuildRow(AsWritten, [], o, leg, sim).ev == 100.0
            && BuildRow(Corrected, [], o, leg, sim).ev == -100.0
  {
    var sim := Simulate(20.0, 5.0, 10.5, [12.0]);
    assert sim.probOver == 1.0;
    assert Ev(1.0, 100.0, Stake) == 100.0;
    assert Ev(0.0, 100.0, Stake) == -100.0;
    assert ScaleUp(100.0, 2) == 10000.0;
    assert ScaleUp(-100.0, 2) == -10000.0;
    RoundHalfEvenOfInteger(10000);
    RoundHalfEvenOfInteger(-10000);
  }
}

=== FILE: Wrappers.dfy ===
/** Optional values and results with an error, used wherever the source
    returns `None` or raises an exception that a caller handles. */
module Wrappers {

  datatype Option<+T> = None | Some(value: T)

  datatype Result<+T, +E> = Success(value: T) | Failure(error: E)
}
